=== FILE: README.md ===
# TD-SOLAR-DASH in Dafny

A model of the data side of the solar-forecast dashboard in `src_dash`. The
dashboard shows one site's actual solar output for one day next to three
forecasts (intraday, day-ahead ensemble, satellite) and two columns from the
daily log workbook. Every source is a folder of files whose names carry the
date as `DD-MM-YYYY`.

The model covers the following:

- finding the one file of a folder for a date;
- the site dropdown and the output checklist;
- reading one site's column, cut to 95 rows;
- reading the last two columns of the site's log sheet, renamed to their last
  eight characters;
- merging the five sources over the 96 quarter-hour labels `00:00` to `23:45`,
  with an all-missing series standing in for a missing file;
- the date range offered by the date picker;
- the callbacks: which columns the main chart draws, in which order and
  colour, which forecast column the error chart compares with `Actual` (and
  the IndexError when `Actual` itself is configured), and the two text lines
  of the side panel.

Modules:

- `Outcomes`: `Option`, `Result` and the Python exceptions the code raises
  or catches.
- `Seqs`: list comprehensions with a filter, flattening, and `list.remove`.
- `Text`: digits, zero padding, Python's substring `in`, `split('.')[0]`,
  `s[-8:]`, code-point string order and `sorted`.
- `Calendar`: `datetime.strptime` for `%d-%m-%Y` and `%Y-%m-%d`, `strftime`
  for those formats and for `%A, %d %B %Y`, and weekdays.
- `Funcs`: `src_dash/funcs.py`. A folder is a list of entries. Each entry has
  a name, says whether it is a regular file, and holds a CSV table (column
  names and a row count) or an Excel workbook (a map from sheet name to
  table). `os.listdir` is the list of names; the clock is a `today` parameter.
- `App`: the callbacks of `src_dash/main.py`. The configured folders,
  `error_bars_for` and `REFRESH_RATE` are parameters.

`get_file_name_for_date` and `get_dates_in_dir` are pure comprehensions, so
they are functions. `get_min_max_dates` is two accumulating loops, so it is a
method with loop invariants. It is proved against `DatesIn`, `MinDate` and
`MaxDate`. `read_all_data_for_date_site` is straight-line statement code. It
is a method proved equal to `MergeAll`, and `MergeAll`'s behaviour is proved
in lemmas. The `Logs` loop of the first callback is the method `ExpandLogs`, proved
against `ColonColumns`; the `remove` after it is `RemoveFirst`.

The dashboard calls `get_min_max_dates(verbose=False, *args)` positionally
with four folders. Python then binds the actual-output folder to `verbose`,
so only the log, day-ahead and satellite folders are scanned.
`Funcs.StartupDateRange` models that call as written.

## Model

| member | source | states |
|---|---|---|
| Funcs.SearchKey | src_dash/funcs.py:16-19 | the search text is the given date, or else today formatted `%d-%m-%Y`, which parses back to today |
| Funcs.Locate | src_dash/funcs.py:21-25 | a found name is a listed name containing the key; every failure is FileNotFoundError |
| Funcs.LocateCases | src_dash/funcs.py:21-25 | exactly one containing name gives that name; none, or two distinct ones, give FileNotFoundError |
| Funcs.GetFileNameForDate | src_dash/funcs.py:10-25 | the result is a listed name containing the date searched for, or FileNotFoundError |
| Funcs.SiteChoices | src_dash/funcs.py:38-39 | each label equals its value; values are sorted and a permutation of the header columns whose names lack `Time` |
| Funcs.GetSiteOptions | src_dash/funcs.py:28-39 | on success, the options are the site choices of the header of today's unique CSV file; a missing or ambiguous file for today gives FileNotFoundError; other failures are reader failures |
| Funcs.GetOutputsToShow | src_dash/funcs.py:81-83 | values are the five series names in display order; each label equals its value |
| Funcs.ReadCsvData | src_dash/funcs.py:86-92 | FileNotFoundError exactly when the file is not found; with a site, the only column is the site and at most 95 rows remain |
| Funcs.CsvSiteRows | src_dash/funcs.py:89-92 | a present site column keeps min(rows, 95) rows; an absent one is KeyError; without a site the whole table comes back |
| Funcs.LogColumnNames | src_dash/funcs.py:98-99 | at most the last two columns are kept, each renamed to its last 8 characters |
| Funcs.ReadExcelSheets | src_dash/funcs.py:95-100 | FileNotFoundError exactly when the file is not found; a missing sheet is AttributeError; at most two columns of at most 8 characters |
| Funcs.ReadExcelSheetsCases | src_dash/funcs.py:95-100 | for the day's workbook, a present sheet gives its own row count and the renamed last two columns; an absent sheet gives AttributeError; a non-workbook gives a reader failure |
| Funcs.GetDatesInDir | src_dash/funcs.py:49-50 | at most one stem per entry, and no stem holds a `.` |
| Funcs.GetDatesInDirMembers | src_dash/funcs.py:49-50 | a stem is listed exactly when some regular file has it |
| Funcs.GetDatesInDirAppend | src_dash/funcs.py:49-50 | stems follow listing order: the stems of a + b are those of a, then those of b |
| Funcs.ScanDates | src_dash/funcs.py:68-72 | every collected date is a valid calendar date |
| Funcs.ScanDatesMembers | src_dash/funcs.py:68-75 | a date is collected exactly when an item free of `log`, `scaled` and `copy`, longer than one character, parses to it; unparsable items are skipped |
| Funcs.BadNameSkipped | src_dash/funcs.py:68-75 | the stem `badname` adds no date to the scan |
| Funcs.AdmissibleCases | src_dash/funcs.py:69 | a name of digits and dashes longer than one character passes the filter; names with ` copy`, `_log` or `scaled_` added, and names of at most one character, do not |
| Funcs.FormatAdmissible | src_dash/funcs.py:69-71 | every `DD-MM-YYYY` name of a valid day passes the filter |
| Funcs.DatesInMembers | src_dash/funcs.py:59-72 | a date is collected exactly when some regular file of some scanned folder has an admissible stem that parses to it |
| Funcs.MinDate | src_dash/funcs.py:78 | the result is one of the dates and no later than any of them |
| Funcs.MaxDate | src_dash/funcs.py:78 | the result is one of the dates and no earlier than any of them |
| Funcs.GetMinMaxDates | src_dash/funcs.py:59-78 | ValueError exactly when no date is collected; otherwise the earliest and latest collected dates |
| Funcs.DedupKeepsRange | src_dash/funcs.py:77-78 | dropping duplicates and reordering leaves min and max unchanged |
| Funcs.BindMinMaxArguments | src_dash/funcs.py:53 | the first positional argument fills `verbose`; only the rest reach `args` |
| Funcs.StartupDateRange | src_dash/main.py:25-28 | the start-up range comes from the log, day-ahead and satellite folders only |
| Funcs.StartupIgnoresRealFolder | src_dash/main.py:25-28 | the actual-output folder is bound to `verbose` and never scanned |
| Funcs.TimeLabel | src_dash/funcs.py:111 | label i is `HH:MM` with HH = 15*i div 60 (below 24) and MM = 15*i mod 60 (below 60) |
| Funcs.TimeAxis | src_dash/funcs.py:111 | 96 labels, label i is the i-th quarter-hour as `HH:MM` with those two fields |
| Funcs.TimeAxisOrdered | src_dash/funcs.py:152-153 | the axis runs from `00:00` to `23:45` in strictly increasing order |
| Funcs.NamedSeries | src_dash/funcs.py:113-143 | a missing file becomes a 96-row series; any other read error propagates; the series is renamed |
| Funcs.LogTable | src_dash/funcs.py:134-144 | a missing log file becomes a 96-row `Logs` series; a found sheet keeps its own column names |
| Funcs.OuterJoin | src_dash/funcs.py:146-149 | the left columns come first, then the right ones; the row count is the longer side's |
| Funcs.Combine | src_dash/funcs.py:113-154 | a merged day is indexed by the time axis; FileNotFoundError never escapes the merge |
| Funcs.MergeAll | src_dash/funcs.py:103-156 | a merged day has 96 index labels; FileNotFoundError never escapes the merge |
| Funcs.CombineShape | src_dash/funcs.py:146-154 | a merged day is indexed by the time axis; its columns are IntraDay, Day Ahead Ensemble, Satellite, the log columns (or `Logs`), then Actual |
| Funcs.CombineOutcome | src_dash/funcs.py:113-154 | the merge succeeds exactly when every read succeeded or found no file and the longest column has 96 rows; otherwise the first uncaught error among actual, intraday, day-ahead, satellite and logs is raised, in that order, or ValueError |
| Funcs.CombineRows | src_dash/funcs.py:146-154 | with every read absorbed, the merge succeeds exactly when no column is longer than 96 rows and one has 96 |
| Funcs.CombineFirstError | src_dash/funcs.py:113-144 | a read error other than FileNotFoundError ends the merge, the earliest such read in merge order (actual, intraday, day-ahead, satellite, logs) winning |
| Funcs.CombineAllMissing | src_dash/funcs.py:113-154 | with every file missing, the day is five all-missing columns |
| Funcs.CombineNeedsFullDay | src_dash/funcs.py:86-154 | with the four CSV columns found (at most 95 rows each), the merge succeeds exactly when the log sheet has 96 rows or is missing |
| Funcs.MergeAllNeedsFullDay | src_dash/funcs.py:103-156 | the same statement for the five reads of one day and site |
| Funcs.MergeAllColumns | src_dash/funcs.py:140-149 | every merged day has the IntraDay, Day Ahead Ensemble, Satellite and Actual columns |
| Funcs.ReadAllDataForDateSite | src_dash/funcs.py:103-156 | the statement sequence returns MergeAll for the day and site |
| Seqs.RemoveFirst | src_dash/main.py:144 | one element fewer; the multiset loses one copy of x; the first occurrence is the one removed |
| Text.Sort | src_dash/funcs.py:38 | the result is sorted and a permutation of the input |
| Calendar.ParseFormatDMY | src_dash/funcs.py:71 | every valid date formatted `%d-%m-%Y` parses back to itself |
| Calendar.ParseFormatYMD | src_dash/main.py:131 | every valid date formatted `%Y-%m-%d` parses back to itself |
| Calendar.ParseDMY | src_dash/funcs.py:71 | a parsed text is a valid calendar date |
| Calendar.ParseYMD | src_dash/main.py:131 | a parsed text is a valid calendar date |
| Calendar.DayFieldSpellings | src_dash/funcs.py:71 | a `%d` field reads as day n exactly when it is n in two digits or, below 10, in one digit or a space and one digit |
| Calendar.MonthFieldSpellings | src_dash/funcs.py:71 | a `%m` field reads as month n exactly when it is n in two digits or, below 10, in one digit |
| Calendar.YearFieldSpelling | src_dash/funcs.py:71 | a `%Y` field reads as year y exactly when it is y in four digits |
| Calendar.ParseDMYSpellings | src_dash/funcs.py:71 | a text parses to day d exactly when d is valid and the text is a day spelling, a dash, a month spelling, a dash and the four-digit year |
| Calendar.ParseYMDSpellings | src_dash/main.py:131 | a text parses to day d exactly when d is valid and the text is the four-digit year, a dash, a month spelling, a dash and a day spelling |
| Calendar.ParseDMYNoDash | src_dash/funcs.py:71-73 | a text without a dash raises ValueError |
| Calendar.ParseDMYUnpadded | src_dash/funcs.py:71 | `1-1-2023` parses: day and month need no zero padding |
| Calendar.ParseDMYRefused | src_dash/funcs.py:71 | `31-02-2023` and `01-01-23` are refused |
| Calendar.FormatDMY | src_dash/funcs.py:17 | ten characters: two-digit day, dash, two-digit month, dash, four-digit year, the digits denoting the date |
| Calendar.FormatYMD | src_dash/main.py:131 | ten characters: four-digit year, dash, two-digit month, dash, two-digit day, the digits denoting the date |
| Calendar.Weekday | src_dash/main.py:327 | the weekday number is in 0..6 (Monday is 0) |
| Calendar.WeekdayAnchors | src_dash/main.py:327 | 1 January 2018 is a Monday and 11 October 2026 a Sunday |
| Calendar.LongForm | src_dash/main.py:327 | every character is fixed: the weekday name, `, `, the two-digit day, a space, the month name, a space and the four-digit year, the digits denoting the date |
| Calendar.WeekdayNextDay | src_dash/main.py:327 | the next day's weekday is one later, modulo 7 |
| App.SiteOrDefault | src_dash/main.py:126-127 | no site selected means `NR_Solar`; otherwise the selected site |
| App.OutputsOrDefault | src_dash/main.py:128-129 | an empty selection becomes `["Actual"]`; otherwise the selection is kept |
| App.ReformatPickerDate | src_dash/main.py:131 | ValueError exactly when the picker's text is not `%Y-%m-%d`; otherwise the day formatted `%d-%m-%Y`, which parses to the same day |
| App.ReformatPickerDateOfIso | src_dash/main.py:131 | a date coming from the picker becomes its zero-padded `DD-MM-YYYY` form |
| App.HasColonContains | src_dash/main.py:142 | the colon test is Python's substring `in` with the one-character needle `:` |
| App.ColonColumnsMembers | src_dash/main.py:141-146 | the log columns are exactly the table columns holding `:` |
| App.ExpandLogs | src_dash/main.py:140-143 | the selection followed by every column holding `:`, in table order |
| App.ColonColumns | src_dash/main.py:145-146 | the log columns are at most as many as the table columns |
| App.ColonColumnsAppend | src_dash/main.py:145-146 | the log columns of two stretches of the table are those of the first, then those of the second |
| App.ColonColumnsNone | src_dash/main.py:145-146 | a stretch of columns without `:` has no log column |
| App.ColonColumnsFirstTwo | src_dash/main.py:145-146 | when columns i < j are the first two holding `:`, `log_col1` is column i and `log_col2` column j |
| App.SelectLogs | src_dash/main.py:140-148 | the statements give the selection with all log columns in place of `Logs` and the first two log columns, or IndexError when fewer than two exist |
| App.LogSelection | src_dash/main.py:140-148 | IndexError exactly when `Logs` is selected and fewer than two log columns exist; the two log columns are set exactly when `Logs` is selected; the selection then has one entry fewer plus one per log column |
| App.Selection | src_dash/main.py:140-150 | a selection error is IndexError or KeyError; after the log step succeeds, KeyError occurs exactly when a selected name is not a table column; a successful selection is the log selection |
| App.ExpansionContents | src_dash/main.py:140-144 | `Logs` is traded for all log columns, which form the tail of the selection in table order |
| App.SelectionCases | src_dash/main.py:140-150 | IndexError exactly when `Logs` is selected and fewer than two log columns exist; otherwise KeyError exactly when a ticked name other than the removed `Logs` is not a column; a successful selection names only table columns; the log colours go to the first and second log columns |
| App.SelectionKeyError | src_dash/main.py:140-150 | once the log step succeeds, KeyError occurs exactly when a ticked name other than the removed `Logs` is not a table column |
| App.ColourName | src_dash/main.py:153-158 | a column has a colour name exactly when it is a log column or one of the four series; the second log column is light grey even if it equals the first; every name is a key of the RGB table |
| App.Rgb | src_dash/main.py:160-167 | a name has an RGB value exactly when it is one of the six colour names |
| App.RgbDistinct | src_dash/main.py:160-165 | two different colour names have different RGB values |
| App.ColourOfCases | src_dash/main.py:140-167 | with or without `Logs` ticked, the four series get orange, blue, green and yellow; the log columns, when there are any, get dark and light grey; anything else gets no colour |
| App.Draw | src_dash/main.py:140-167 | the chart draws the selection sorted by name, a permutation of it, over the time axis, each column with its colour; or the selection's error |
| App.UpdateGraph | src_dash/main.py:125-167 | a bad date gives ValueError; a failed read gives its error; otherwise the chart of the merged day for the defaulted selection |
| App.ErrorBasis | src_dash/main.py:234-239 | exactly one configured column is accepted; more is ValueError, none is IndexError |
| App.ErrorGraphColumn | src_dash/main.py:223-233 | a bad date gives ValueError before anything is read; otherwise the day and site are merged and the column is chosen from that result; a chosen column is the one configured and is not `Actual` |
| App.ErrorColumnOf | src_dash/main.py:234-258 | a failed read comes before the configuration check; a single configured column works exactly when the merged day has it and it is not `Actual`; a missing column is KeyError; `Actual` alone gives IndexError when the day has an `Actual` column, as every merged day does |
| App.ErrorGraphForecast | src_dash/main.py:234-258 | any one forecast configured alone is accepted whenever the day can be read; `Actual` alone always gives IndexError |
| App.DisplaySite | src_dash/main.py:318-321 | the text is `Site : ` followed by the defaulted site |
| App.DisplayDate | src_dash/main.py:326-328 | ValueError exactly when the date is unreadable; otherwise `Date : ` and the day's long form |
| App.DisplayDateWeekday | src_dash/main.py:326-328 | the date line names the day's weekday; the next day's weekday follows it |
| App.IntervalMillis | src_dash/main.py:107 | the interval is a whole number of minutes, and it equals the refresh rate |

## Left out

- The Dash layout, the plotly figures (axes, fonts, hover text) and `app.run_server`: they are presentation only.
- The error chart's arithmetic: absolute percentage error, replacing infinities, `fillna`, the 0.15 colour threshold, the MAPE line and `round(2)`. All of it is floating point.
- Cell values: a table is its column names and its row count. The values that `fillna` and `round(2)` touch are not modelled.
- `os.listdir`, `os.path.isfile` and `pd.read_csv`/`pd.read_excel` become the `Folder` value. Listing order is the list order. A file the pandas readers cannot parse is the single error `ReadFailure`.
- `get_today_date`, `get_current_time` and `update_dashboard_for_today` read the clock. The clock's date is the `today` parameter of `SearchKey`, and the time of day is not modelled.
- The `verbose` printing of `get_min_max_dates`: it prints only.
- Funcs.GetMinMaxDates: does not perform `list(set(dates_))`; Funcs.DedupKeepsRange shows the dedupe cannot change the result.
- Calendar.ParseDMY: `strptime`'s `\d` also accepts non-ASCII Unicode digits; the model accepts ASCII digits only. Calendar.ParseYMD has the same restriction.
- Calendar.FormatDMY: always writes four year digits; some C libraries print years below 1000 with fewer digits.
- Column names that repeat across sources, and pandas' `_x`/`_y` merge suffixes, are not modelled. Excel column names that are not strings are not modelled either.
- App.Draw: treats each selected name as one column. Two log columns can end in the same eight characters (src_dash/funcs.py:100). Then `data[outputs]` (src_dash/main.py:150) selects every copy of each repeated name, and `reindex` (src_dash/main.py:151) raises ValueError unless those columns are already in sorted order. Neither the copies nor that ValueError is modelled.
- App.UpdateGraph: the interval count `n` is unused by the source and is not a parameter.
- App.ErrorColumnOf: stops at choosing the compared column; the `data[['Actual', col]]` arithmetic after it is floating point (see above). With `Actual` configured, that arithmetic is taken to complete on the doubled column before `data.columns[0]` fails.
- A configured folder that does not exist: `os.listdir` raises FileNotFoundError (src_dash/funcs.py:21, 50). The model's folders always exist. In the merge that error would be absorbed like a missing file; in `get_min_max_dates` at start-up (src_dash/funcs.py:63) it would stop the dashboard.
- `%A` and `%B` follow the process locale; the model writes the English (C locale) weekday and month names.
- Calendar.LongForm: writes `%Y` with four digits, as for Calendar.FormatDMY above.
- The values in `config.py` (folders, `error_bars_for`, `REFRESH_RATE`) are parameters, not constants.

=== FILE: app.dfy ===
/** The callbacks of the dashboard page (src_dash/main.py), without the plotly
    figures: what each callback selects, orders, colours and prints. The
    configuration values (`error_bars_for`, `REFRESH_RATE`) and the folders
    enter as parameters. */
module App {
  import opened Outcomes
  import opened Text
  import opened Seqs
  import opened Calendar
  import opened Funcs

  /** The site shown when the dropdown has no selection. */
  const DefaultSite: string := "NR_Solar"

  function SiteOrDefault(site: Option<string>): (s: string)
    ensures site.Some? ==> s == site.value
    ensures site.None? ==> s == DefaultSite
  {
    if site.Some? then site.value else DefaultSite
  }

  /** An empty checklist selection shows the actual output alone. */
  function OutputsOrDefault(outputs: seq<string>): (o: seq<string>)
    ensures o != []
    ensures outputs == [] ==> o == ["Actual"]
    ensures outputs != [] ==> o == outputs
  {
    if |outputs| == 0 then ["Actual"] else outputs
  }

  /** `datetime.strptime(date, '%Y-%m-%d').strftime('%d-%m-%Y')`: the picker's
      date rewritten in the file-name form, or ValueError. */
  function ReformatPickerDate(date: string): (r: Result<string>)
    ensures r.Ok? <==> ParseYMD(date).Some?
    ensures r.Err? ==> r.error == ValueError
    ensures r.Ok? ==> r.value == FormatDMY(ParseYMD(date).value) && ParseDMY(r.value) == ParseYMD(date)
  {
    match ParseYMD(date)
    case None => Err(ValueError)
    case Some(d) => ParseFormatDMY(d); Ok(FormatDMY(d))
  }

  /** Every date the picker emits comes out as its zero-padded `DD-MM-YYYY` form. */
  lemma ReformatPickerDateOfIso(d: Date)
    requires Valid(d)
    ensures ReformatPickerDate(FormatYMD(d)) == Ok(FormatDMY(d))
  {
    ParseFormatYMD(d);
  }

  // ---------------------------------------------------------------------------
  // The first update_graph: which columns are drawn, in which order and colour.

  /** Python's `':' in col`, written as character membership. */
  predicate HasColon(col: string) { ':' in col }

  /** On a one-character needle the substring test is character membership. */
  lemma HasColonContains(col: string)
    ensures HasColon(col) <==> Contains(col, ":")
  {
    if HasColon(col) {
      ContainsChar(col, ':');
    } else {
      NotContainsChar(col, ':');
    }
  }

  /** The log columns of the merged table: those whose names hold `:`, in
      table order (`[col for col in data.columns if ':' in col]`). */
  function ColonColumns(columns: seq<string>): (cs: seq<string>)
    ensures |cs| <= |columns|
  {
    if columns == [] then []
    else
      var last := columns[|columns| - 1];
      ColonColumns(columns[..|columns| - 1]) + (if HasColon(last) then [last] else [])
  }

  /** A name is a log column exactly when the table has it and it holds `:`. */
  lemma {:induction false} ColonColumnsMembers(columns: seq<string>)
    ensures forall c :: c in ColonColumns(columns) <==> c in columns && HasColon(c)
  {
    if columns != [] {
      var init := columns[..|columns| - 1];
      ColonColumnsMembers(init);
      assert columns == init + [columns[|columns| - 1]];
      assert forall c :: c in columns <==> c in init || c == columns[|columns| - 1];
    }
  }

  /** The log columns of a concatenation are those of each part, in order. */
  lemma {:induction false} ColonColumnsAppend(a: seq<string>, b: seq<string>)
    ensures ColonColumns(a + b) == ColonColumns(a) + ColonColumns(b)
    decreases |b|
  {
    if b != [] {
      var init := b[..|b| - 1];
      assert a + b == (a + init) + [b[|b| - 1]];
      assert (a + b)[..|a + b| - 1] == a + init;
      var tail := if HasColon(b[|b| - 1]) then [b[|b| - 1]] else [];
      assert ColonColumns(a + b) == ColonColumns(a + init) + tail;
      assert ColonColumns(b) == ColonColumns(init) + tail;
      ColonColumnsAppend(a, init);
    } else {
      assert a + b == a;
    }
  }

  /** A stretch of columns without `:` contributes no log column. */
  lemma {:induction false} ColonColumnsNone(columns: seq<string>)
    requires forall k :: 0 <= k < |columns| ==> !HasColon(columns[k])
    ensures ColonColumns(columns) == []
  {
    if columns != [] {
      ColonColumnsNone(columns[..|columns| - 1]);
    }
  }

  /** `log_col1` and `log_col2` are the first and the second column holding
      `:` in table order: when columns i < j are the first two such, the log
      columns start with them. */
  lemma ColonColumnsFirstTwo(columns: seq<string>, i: nat, j: nat)
    requires i < j < |columns| && HasColon(columns[i]) && HasColon(columns[j])
    requires forall k :: 0 <= k < j && k != i ==> !HasColon(columns[k])
    ensures var cs := ColonColumns(columns);
      |cs| >= 2 && cs[0] == columns[i] && cs[1] == columns[j]
  {
    var before, between := columns[..i], columns[i + 1..j];
    ColonColumnsNone(before);
    forall k | 0 <= k < |between| ensures !HasColon(between[k]) {
      assert between[k] == columns[i + 1 + k];
    }
    ColonColumnsNone(between);
    assert ColonColumns([columns[i]]) == [columns[i]];
    assert ColonColumns([columns[j]]) == [columns[j]];
    assert columns == before + [columns[i]] + between + [columns[j]] + columns[j + 1..];
    ColonColumnsAppend(before, [columns[i]]);
    ColonColumnsAppend(before + [columns[i]], between);
    ColonColumnsAppend(before + [columns[i]] + between, [columns[j]]);
    ColonColumnsAppend(before + [columns[i]] + between + [columns[j]], columns[j + 1..]);
  }

  /** The loop of lines 141-143: every column holding `:` appended to the
      selection, in table order. */
  method ExpandLogs(outputs: seq<string>, columns: seq<string>) returns (expanded: seq<string>)
    ensures expanded == outputs + ColonColumns(columns)
  {
    expanded := outputs;
    for i := 0 to |columns|
      invariant expanded == outputs + ColonColumns(columns[..i])
    {
      assert columns[..i + 1][..i] == columns[..i];
      if HasColon(columns[i]) {
        expanded := expanded + [columns[i]];
      }
    }
    assert columns[..|columns|] == columns;
  }

  /** The expansion trades the one `Logs` entry for every log column of the
      table, which keep their table order at the end of the selection. */
  lemma ExpansionContents(outputs: seq<string>, columns: seq<string>)
    requires "Logs" in outputs
    ensures var e := RemoveFirst(outputs + ColonColumns(columns), "Logs");
      && multiset(e) == multiset(outputs) - multiset{"Logs"} + multiset(ColonColumns(columns))
      && e[|e| - |ColonColumns(columns)|..] == ColonColumns(columns)
  {
    var colon := ColonColumns(columns);
    ColonColumnsMembers(columns);
    assert "Logs" !in colon;
    RemoveFirstAppend(outputs, colon, "Logs");
  }

  /** `data[outputs]` raises KeyError: some selected name is not a column. */
  predicate Missing(selected: seq<string>, columns: seq<string>)
  {
    exists c :: c in selected && c !in columns
  }

  /** Lines 140-148: with `Logs` ticked, the selection with the log columns
      in place of `Logs` and the first two log columns, or the IndexError of a
      missing one; without it, the selection and no log columns. */
  function LogSelection(outputs: seq<string>, columns: seq<string>): (r: Result<(seq<string>, Option<string>, Option<string>)>)
    ensures r.Err? <==> "Logs" in outputs && |ColonColumns(columns)| < 2
    ensures r.Err? ==> r.error == IndexError
    ensures r.Ok? ==> (r.value.1.Some? <==> "Logs" in outputs) && (r.value.2.Some? <==> "Logs" in outputs)
    ensures r.Ok? && "Logs" in outputs ==> |r.value.0| == |outputs| - 1 + |ColonColumns(columns)|
  {
    if "Logs" !in outputs then Ok((outputs, None, None))
    else
      var colon := ColonColumns(columns);
      if |colon| < 2 then Err(IndexError)
      else Ok((RemoveFirst(outputs + colon, "Logs"), Some(colon[0]), Some(colon[1])))
  }

  /** What the first callback draws from a merged table with columns `columns`:
      the selected names and the two log columns, or the IndexError of a
      missing log column, or the KeyError of a selected name not in the table. */
  function Selection(outputs: seq<string>, columns: seq<string>): (r: Result<(seq<string>, Option<string>, Option<string>)>)
    ensures r.Err? ==> r.error == IndexError || r.error == KeyError
    ensures r.Ok? ==> !Missing(r.value.0, columns) && LogSelection(outputs, columns) == r
    ensures LogSelection(outputs, columns).Err? ==> r == LogSelection(outputs, columns)
    ensures LogSelection(outputs, columns).Ok? ==> (r.Err? <==> Missing(LogSelection(outputs, columns).value.0, columns))
  {
    match LogSelection(outputs, columns)
    case Err(e) => Err(e)
    case Ok(sel) => if Missing(sel.0, columns) then Err(KeyError) else Ok(sel)
  }

  /** Lines 140-148 as statements: the expansion loop, `remove`, and the two
      indexings that raise IndexError. */
  method SelectLogs(outputs: seq<string>, columns: seq<string>)
    returns (r: Result<(seq<string>, Option<string>, Option<string>)>)
    ensures r == LogSelection(outputs, columns)
  {
    if "Logs" in outputs {
      var chosen := ExpandLogs(outputs, columns);
      chosen := RemoveFirst(chosen, "Logs");
      var colon := ColonColumns(columns);
      if |colon| < 1 {
        return Err(IndexError);
      }
      var logCol1 := colon[0];
      if |colon| < 2 {
        return Err(IndexError);
      }
      var logCol2 := colon[1];
      r := Ok((chosen, Some(logCol1), Some(logCol2)));
    } else {
      r := Ok((outputs, None, None));
    }
  }

  /** The selection fails exactly on fewer than two log columns with `Logs`
      ticked (IndexError), or on a selected name the table lacks (KeyError);
      otherwise every selected name is a column, with `Logs` replaced by the
      first and second log columns in table order. */
  lemma SelectionCases(outputs: seq<string>, columns: seq<string>)
    ensures var colon := ColonColumns(columns);
      var r := Selection(outputs, columns);
      && ("Logs" in outputs && |colon| < 2 <==> r == Err(IndexError))
      && (r.Ok? ==> forall c :: c in r.value.0 ==> c in columns)
      && (r.Ok? && "Logs" in outputs ==>
            && multiset(r.value.0) == multiset(outputs) - multiset{"Logs"} + multiset(colon)
            && r.value.1 == Some(colon[0]) && r.value.2 == Some(colon[1]) && colon[0] != "Logs")
      && (r.Ok? && "Logs" !in outputs ==> r.value == (outputs, None, None))
      && (!("Logs" in outputs && |colon| < 2) ==>
            (r == Err(KeyError) <==> exists c :: c in multiset(outputs) - multiset{"Logs"} && c !in columns))
  {
    if !("Logs" in outputs && |ColonColumns(columns)| < 2) {
      SelectionKeyError(outputs, columns);
    }
    if "Logs" in outputs {
      ExpansionContents(outputs, columns);
      var colon := ColonColumns(columns);
      ColonColumnsMembers(columns);
      if |colon| >= 1 {
        assert colon[0] in colon;
      }
    }
  }

  /** Once the log columns are in place, `data[outputs]` raises KeyError exactly
      when a selected name other than the one `Logs` entry removed is not a
      column: the log columns themselves are always present. */
  lemma SelectionKeyError(outputs: seq<string>, columns: seq<string>)
    requires !("Logs" in outputs && |ColonColumns(columns)| < 2)
    ensures Selection(outputs, columns) == Err(KeyError) <==>
      exists c :: c in multiset(outputs) - multiset{"Logs"} && c !in columns
  {
    var sel := LogSelection(outputs, columns).value.0;
    var rest := multiset(outputs) - multiset{"Logs"};
    if "Logs" in outputs {
      ExpansionContents(outputs, columns);
      ColonColumnsMembers(columns);
      assert multiset(sel) == rest + multiset(ColonColumns(columns));
      if Missing(sel, columns) {
        var c :| c in sel && c !in columns;
        assert c in multiset(sel);
        assert c !in ColonColumns(columns);
        assert c in rest;
      }
      if exists c :: c in rest && c !in columns {
        var c :| c in rest && c !in columns;
        assert c in multiset(sel);
        assert c in sel;
      }
    } else {
      assert multiset(outputs)["Logs"] == 0;
      assert rest == multiset(outputs);
    }
  }

  /** `color_codes.get(col)`: a dict literal keeps the last value of a repeated
      key, so the second log column is looked up first. */
  function ColourName(col: string, logCol1: Option<string>, logCol2: Option<string>): (r: Option<string>)
    ensures r.Some? <==> logCol1 == Some(col) || logCol2 == Some(col) || col in OutputNames[..4]
    ensures logCol2 == Some(col) ==> r == Some("lightgray")
    ensures r.Some? ==> r.value in ColourNames
  {
    assert OutputNames[..4] == ["Actual", "Day Ahead Ensemble", "Satellite", "IntraDay"];
    if logCol2 == Some(col) then Some("lightgray")
    else if logCol1 == Some(col) then Some("darkgray")
    else if col == "Satellite" then Some("yellow")
    else if col == "Actual" then Some("green")
    else if col == "Day Ahead Ensemble" then Some("blue")
    else if col == "IntraDay" then Some("orange")
    else None
  }

  /** The six names of `color_dict`. */
  const ColourNames: seq<string> := ["green", "blue", "orange", "yellow", "darkgray", "lightgray"]

  /** `color_dict.get(...)` of the line chart: every name of the dict has a
      distinct `rgb(...)` value, any other name none. */
  function Rgb(name: Option<string>): (r: Option<string>)
    ensures r.Some? <==> name.Some? && name.value in ColourNames
  {
    match name
    case None => None
    case Some(n) =>
      if n == "green" then Some("rgb(153, 201, 69)")
      else if n == "blue" then Some("rgb(102, 197, 204)")
      else if n == "orange" then Some("rgb(248, 156, 116)")
      else if n == "yellow" then Some("rgb(246, 207, 113)")
      else if n == "darkgray" then Some("rgb(102, 102, 102)")
      else if n == "lightgray" then Some("rgb(204, 204, 204)")
      else None
  }

  /** No two colour names share an `rgb(...)` value, so distinct names give
      distinguishable lines. */
  lemma RgbDistinct(a: string, b: string)
    requires a in ColourNames && b in ColourNames && a != b
    ensures Rgb(Some(a)) != Rgb(Some(b))
  {
  }

  function ColourOf(col: string, logCol1: Option<string>, logCol2: Option<string>): Option<string>
  {
    Rgb(ColourName(col, logCol1, logCol2))
  }

  /** Each series keeps its colour: the four forecasts and the actual output
      their fixed ones whether or not `Logs` is ticked, the log columns (when
      there are any) dark and light grey, anything else none. */
  lemma ColourOfCases(col: string, logCol1: Option<string>, logCol2: Option<string>)
    requires logCol1.Some? ==> HasColon(logCol1.value)
    requires logCol2.Some? ==> HasColon(logCol2.value)
    requires logCol1.Some? && logCol2.Some? ==> logCol1 != logCol2
    ensures col == "IntraDay" ==> ColourOf(col, logCol1, logCol2) == Some("rgb(248, 156, 116)")
    ensures col == "Day Ahead Ensemble" ==> ColourOf(col, logCol1, logCol2) == Some("rgb(102, 197, 204)")
    ensures col == "Actual" ==> ColourOf(col, logCol1, logCol2) == Some("rgb(153, 201, 69)")
    ensures col == "Satellite" ==> ColourOf(col, logCol1, logCol2) == Some("rgb(246, 207, 113)")
    ensures logCol1 == Some(col) ==> ColourOf(col, logCol1, logCol2) == Some("rgb(102, 102, 102)")
    ensures logCol2 == Some(col) ==> ColourOf(col, logCol1, logCol2) == Some("rgb(204, 204, 204)")
    ensures col !in OutputNames[..4] && Some(col) != logCol1 && Some(col) != logCol2 ==> ColourOf(col, logCol1, logCol2).None?
  {
    assert OutputNames[..4] == ["Actual", "Day Ahead Ensemble", "Satellite", "IntraDay"];
  }

  /** The part of the line chart this model keeps: the drawn columns, their
      colours (`color_discrete_sequence`) and the x axis. */
  datatype LineChart = LineChart(columns: seq<string>, colours: seq<Option<string>>, index: seq<string>)

  /** `r` is the chart drawn from the merged table `data` for the selection
      `outputs`: the selection's error, or its names sorted (a permutation of
      them), the table's time axis, and each column's colour. */
  predicate ChartOf(r: Result<LineChart>, data: Merged, outputs: seq<string>)
  {
    var sel := Selection(outputs, data.columns);
    && (sel.Err? ==> r == Err(sel.error))
    && (sel.Ok? ==>
          && r.Ok?
          && Sorted(r.value.columns)
          && multiset(r.value.columns) == multiset(sel.value.0)
          && r.value.index == data.index
          && |r.value.colours| == |r.value.columns|
          && forall i :: 0 <= i < |r.value.columns| ==>
               r.value.colours[i] == ColourOf(r.value.columns[i], sel.value.1, sel.value.2))
  }

  /** Lines 140-167 of the first callback, from the merged table to the chart. */
  method Draw(data: Merged, outputs: seq<string>) returns (r: Result<LineChart>)
    ensures ChartOf(r, data, outputs)
  {
    var sel := SelectLogs(outputs, data.columns);
    if sel.Err? {
      return Err(sel.error);
    }
    var (chosen, logCol1, logCol2) := sel.value;
    if Missing(chosen, data.columns) {
      return Err(KeyError);
    }
    var shown := Sort(chosen);
    var colours := seq(|shown|, i requires 0 <= i < |shown| => ColourOf(shown[i], logCol1, logCol2));
    r := Ok(LineChart(shown, colours, data.index));
  }

  /** The first `update_graph(site, date, n, outputs)` up to the figure: the
      defaults for an empty site or selection, the date rewritten for the
      readers, the merged table, then the chart. The interval count `n` does
      not influence the result and is omitted. */
  method UpdateGraph(site: Option<string>, date: string, outputs: seq<string>, src: Sources)
    returns (r: Result<LineChart>)
    ensures ReformatPickerDate(date).Err? ==> r == Err(ValueError)
    ensures ReformatPickerDate(date).Ok? ==>
      var data := MergeAll(src, ReformatPickerDate(date).value, SiteOrDefault(site));
      && (data.Err? ==> r == Err(data.error))
      && (data.Ok? ==> ChartOf(r, data.value, OutputsOrDefault(outputs)))
  {
    var chosenSite := SiteOrDefault(site);
    var chosen := OutputsOrDefault(outputs);
    var day := ReformatPickerDate(date);
    if day.Err? {
      return Err(day.error);
    }
    var read := ReadAllDataForDateSite(src, day.value, chosenSite);
    if read.Err? {
      return Err(read.error);
    }
    r := Draw(read.value, chosen);
  }

  // ---------------------------------------------------------------------------
  // The second update_graph: the configuration check on `error_bars_for`.

  /** The error graph supports one configured column: more than one is a
      ValueError, and an empty list fails on `show_cols[0]`. */
  function ErrorBasis(errorBarsFor: seq<string>): (r: Result<string>)
    ensures r.Ok? <==> |errorBarsFor| == 1
    ensures r.Ok? ==> r.value == errorBarsFor[0]
    ensures |errorBarsFor| > 1 ==> r == Err(ValueError)
    ensures errorBarsFor == [] ==> r == Err(IndexError)
  {
    if |errorBarsFor| > 1 then Err(ValueError)
    else if errorBarsFor == [] then Err(IndexError)
    else Ok(errorBarsFor[0])
  }

  /** The second `update_graph(site, date, n)` up to its arithmetic: the table
      is read before the configuration is checked, so a bad date or a failed
      read is reported first; then `data[['Actual', show_cols]]` needs the
      configured column in the merged table (KeyError). Configuring `Actual`
      itself selects two columns both called `Actual`; `drop('Actual')` removes
      both, and `data[data.columns[0]]` raises IndexError. The result is the
      column whose error is drawn. */
  function ErrorGraphColumn(site: Option<string>, date: string, errorBarsFor: seq<string>, src: Sources): (r: Result<string>)
    ensures ReformatPickerDate(date).Err? ==> r == Err(ValueError)
    ensures ReformatPickerDate(date).Ok? ==>
      r == ErrorColumnOf(MergeAll(src, ReformatPickerDate(date).value, SiteOrDefault(site)), errorBarsFor)
    ensures r.Ok? ==> errorBarsFor == [r.value] && r.value != "Actual"
  {
    var day := ReformatPickerDate(date);
    if day.Err? then Err(ValueError)
    else ErrorColumnOf(MergeAll(src, day.value, SiteOrDefault(site)), errorBarsFor)
  }

  /** The error chart's column for a day's merge result: a failed read first,
      then the configuration, then the column's presence and `Actual`. */
  function ErrorColumnOf(data: Result<Merged>, errorBarsFor: seq<string>): (r: Result<string>)
    ensures data.Err? ==> r == Err(data.error)
    ensures data.Ok? && ErrorBasis(errorBarsFor).Err? ==> r == ErrorBasis(errorBarsFor)
    ensures data.Ok? && |errorBarsFor| == 1 ==>
      (r.Ok? <==> errorBarsFor[0] in data.value.columns && errorBarsFor[0] != "Actual")
    ensures data.Ok? && errorBarsFor == ["Actual"] && "Actual" in data.value.columns ==> r == Err(IndexError)
    ensures data.Ok? && |errorBarsFor| == 1 && errorBarsFor[0] !in data.value.columns ==> r == Err(KeyError)
    ensures r.Ok? ==> errorBarsFor == [r.value] && r.value != "Actual"
  {
    var basis := ErrorBasis(errorBarsFor);
    if data.Err? then Err(data.error)
    else if basis.Err? then basis
    else if basis.value !in data.value.columns then Err(KeyError)
    else if basis.value == "Actual" then Err(IndexError)
    else basis
  }

  /** Every merged table has the three forecast columns and `Actual`, so any
      forecast configured alone is drawn whenever the day can be read, while
      `Actual` configured alone always ends in IndexError. */
  lemma ErrorGraphForecast(site: Option<string>, date: string, col: string, src: Sources)
    requires col in OutputNames && col != "Logs"
    ensures ReformatPickerDate(date).Ok? && MergeAll(src, ReformatPickerDate(date).value, SiteOrDefault(site)).Ok?
      ==> ErrorGraphColumn(site, date, [col], src) == if col == "Actual" then Err(IndexError) else Ok(col)
  {
    if ReformatPickerDate(date).Ok? && MergeAll(src, ReformatPickerDate(date).value, SiteOrDefault(site)).Ok? {
      MergeAllColumns(src, ReformatPickerDate(date).value, SiteOrDefault(site));
      assert ErrorBasis([col]) == Ok(col);
    }
  }

  // ---------------------------------------------------------------------------
  // The two display_site_selected callbacks and the refresh interval.

  /** The site line of the side panel. */
  function DisplaySite(site: Option<string>): (text: string)
    ensures |text| >= 7 && text[..7] == "Site : " && text[7..] == SiteOrDefault(site)
  {
    "Site : " + SiteOrDefault(site)
  }

  /** The date line of the side panel: `Date : ` and the picked day as
      `%A, %d %B %Y`, or the ValueError of an unreadable date. */
  function DisplayDate(date: string): (r: Result<string>)
    ensures r.Ok? <==> ReformatPickerDate(date).Ok?
    ensures r.Err? ==> r.error == ValueError
    ensures r.Ok? ==> exists d :: ParseYMD(date) == Some(d) && r.value == "Date : " + LongForm(d)
  {
    match ParseYMD(date)
    case None => Err(ValueError)
    case Some(d) => Ok("Date : " + LongForm(d))
  }

  /** The date line names the weekday of the picked day: picking the next day
      moves the weekday name on by one. */
  lemma DisplayDateWeekday(d: Date)
    requires Valid(d) && d.year < 9999
    ensures DisplayDate(FormatYMD(d)) == Ok("Date : " + LongForm(d))
    ensures DisplayDate(FormatYMD(NextDay(d))) == Ok("Date : " + LongForm(NextDay(d)))
    ensures Weekday(NextDay(d)) == (Weekday(d) + 1) % 7
  {
    ParseFormatYMD(d);
    ParseFormatYMD(NextDay(d));
    WeekdayNextDay(d);
  }

  /** `dcc.Interval(interval=60 * REFRESH_RATE * 1000)`: milliseconds for a
      refresh every `refreshRate` minutes. */
  function IntervalMillis(refreshRate: nat): (ms: nat)
    ensures ms % 60000 == 0 && ms / 60000 == refreshRate
  {
    60 * refreshRate * 1000
  }
}

=== FILE: calendar.dfy ===
/** Proleptic Gregorian dates as Python's `datetime.date` has them, the two
    textual forms the dashboard parses and prints (`DD-MM-YYYY` in file names,
    `YYYY-MM-DD` from the date picker), and the weekday and month names of the
    `%A` and `%B` fields. */
module Calendar {
  import opened Outcomes
  import opened Text

  datatype Date = Date(year: int, month: int, day: int)

  predicate IsLeap(y: int) { y % 4 == 0 && (y % 100 != 0 || y % 400 == 0) }

  function DaysInMonth(y: int, m: int): (n: int)
    requires 1 <= m <= 12
    ensures 28 <= n <= 31
  {
    if m == 2 then (if IsLeap(y) then 29 else 28)
    else if m == 4 || m == 6 || m == 9 || m == 11 then 30
    else 31
  }

  /** What `datetime.date(year, month, day)` accepts (MINYEAR is 1, MAXYEAR 9999). */
  predicate Valid(d: Date)
  {
    1 <= d.year <= 9999 && 1 <= d.month <= 12 && 1 <= d.day <= DaysInMonth(d.year, d.month)
  }

  /** Python's `<=` on dates: year, then month, then day. */
  predicate DateLe(a: Date, b: Date)
  {
    a.year < b.year
    || (a.year == b.year && (a.month < b.month || (a.month == b.month && a.day <= b.day)))
  }

  // ---------------------------------------------------------------------------
  // strptime. CPython compiles `%d` to `3[01]|[12]\d|0[1-9]|[1-9]| [1-9]`,
  // `%m` to `1[0-2]|0[1-9]|[1-9]` and `%Y` to `\d\d\d\d`, matches the whole
  // string, then lets the date constructor reject impossible days.

  /** A `%d` field and the day it denotes. */
  function DayField(t: string): (r: Option<int>)
    ensures r.Some? ==> 1 <= r.value <= 31
  {
    if |t| == 1 && '1' <= t[0] <= '9' then Some(DigitValue(t[0]))
    else if |t| == 2 && (t[0] == '0' || t[0] == ' ') && '1' <= t[1] <= '9' then Some(DigitValue(t[1]))
    else if |t| == 2 && AllDigits(t) && 10 <= DigitsValue(t) <= 31 then Some(DigitsValue(t))
    else None
  }

  /** A `%m` field and the month it denotes. */
  function MonthField(t: string): (r: Option<int>)
    ensures r.Some? ==> 1 <= r.value <= 12
  {
    if |t| == 1 && '1' <= t[0] <= '9' then Some(DigitValue(t[0]))
    else if |t| == 2 && t[0] == '0' && '1' <= t[1] <= '9' then Some(DigitValue(t[1]))
    else if |t| == 2 && AllDigits(t) && 10 <= DigitsValue(t) <= 12 then Some(DigitsValue(t))
    else None
  }

  /** A `%Y` field: exactly four digits. */
  function YearField(t: string): (r: Option<int>)
    ensures r.Some? ==> 0 <= r.value <= 9999
  {
    if |t| == 4 && AllDigits(t) then
      DigitsValueBound(t);
      assert Pow10(4) == 10000;
      Some(DigitsValue(t))
    else None
  }

  /** Splits `s` at its first two occurrences of `sep`; the third part may hold more of them. */
  function SplitThree(s: string, sep: char): (r: Option<(string, string, string)>)
    ensures r.Some? ==> s == r.value.0 + [sep] + r.value.1 + [sep] + r.value.2
    ensures r.Some? ==> sep !in r.value.0 && sep !in r.value.1
  {
    var a := Before(s, sep);
    if |a| == |s| then None
    else
      var rest := s[|a| + 1..];
      var b := Before(rest, sep);
      if |b| == |rest| then None
      else
        assert s == a + [sep] + rest;
        assert rest == b + [sep] + rest[|b| + 1..];
        Some((a, b, rest[|b| + 1..]))
  }

  /** Builds the date when the constructor accepts the three numbers. */
  function MakeDate(y: Option<int>, m: Option<int>, d: Option<int>): (r: Option<Date>)
    ensures r.Some? ==> Valid(r.value)
  {
    if y.Some? && m.Some? && d.Some? && Valid(Date(y.value, m.value, d.value))
    then Some(Date(y.value, m.value, d.value))
    else None
  }

  /** `datetime.strptime(s, '%d-%m-%Y')`; None stands for the ValueError it raises. */
  function ParseDMY(s: string): (r: Option<Date>)
    ensures r.Some? ==> Valid(r.value)
  {
    match SplitThree(s, '-')
    case None => None
    case Some((d, m, y)) => MakeDate(YearField(y), MonthField(m), DayField(d))
  }

  /** `datetime.strptime(s, '%Y-%m-%d')`; None stands for the ValueError it raises. */
  function ParseYMD(s: string): (r: Option<Date>)
    ensures r.Some? ==> Valid(r.value)
  {
    match SplitThree(s, '-')
    case None => None
    case Some((y, m, d)) => MakeDate(YearField(y), MonthField(m), DayField(d))
  }

  /** `strptime` is lenient about padding: a one-digit day and month are read. */
  lemma ParseDMYUnpadded()
    ensures ParseDMY("1-1-2023") == Some(Date(2023, 1, 1))
  {
    assert YearField("2023") == Some(2023) by {
      assert DigitsValue("2") == 2 by { assert "2"[..0] == ""; }
      assert DigitsValue("20") == 20 by { assert "20"[..1] == "2"; }
      assert DigitsValue("202") == 202 by { assert "202"[..2] == "20"; }
      assert DigitsValue("2023") == 2023 by { assert "2023"[..3] == "202"; }
    }
    SplitThreeOf("1", "1", "2023", '-');
    assert "1" + "-" + "1" + "-" + "2023" == "1-1-2023";
  }

  /** `strptime` is strict about the calendar and the year's width: 31 February
      and a two-digit year are refused. */
  lemma ParseDMYRefused()
    ensures ParseDMY("31-02-2023") == None
    ensures ParseDMY("01-01-23") == None
  {
    SplitThreeOf("31", "02", "2023", '-');
    assert "31" + "-" + "02" + "-" + "2023" == "31-02-2023";
    SplitThreeOf("01", "01", "23", '-');
    assert "01" + "-" + "01" + "-" + "23" == "01-01-23";
  }

  // ---------------------------------------------------------------------------
  // strftime.

  /** `date.strftime('%d-%m-%Y')`: ten characters, two-digit day and month
      and four-digit year, separated by dashes. */
  function FormatDMY(d: Date): (s: string)
    requires Valid(d)
    ensures |s| == 10 && s[2] == '-' && s[5] == '-'
    ensures AllDigits(s[..2]) && AllDigits(s[3..5]) && AllDigits(s[6..])
    ensures DigitsValue(s[..2]) == d.day && DigitsValue(s[3..5]) == d.month && DigitsValue(s[6..]) == d.year
  {
    var s := Pad2(d.day) + "-" + Pad2(d.month) + "-" + Pad4(d.year);
    assert s[..2] == Pad2(d.day) && s[3..5] == Pad2(d.month) && s[6..] == Pad4(d.year);
    s
  }

  /** The ISO form `YYYY-MM-DD` the date picker hands to the callbacks. */
  function FormatYMD(d: Date): (s: string)
    requires Valid(d)
    ensures |s| == 10 && s[4] == '-' && s[7] == '-'
    ensures AllDigits(s[..4]) && AllDigits(s[5..7]) && AllDigits(s[8..])
    ensures DigitsValue(s[..4]) == d.year && DigitsValue(s[5..7]) == d.month && DigitsValue(s[8..]) == d.day
  {
    var s := Pad4(d.year) + "-" + Pad2(d.month) + "-" + Pad2(d.day);
    assert s[..4] == Pad4(d.year) && s[5..7] == Pad2(d.month) && s[8..] == Pad2(d.day);
    s
  }

  lemma DigitsHaveNoDash(s: string)
    requires AllDigits(s)
    ensures '-' !in s
  {
  }

  lemma {:induction false} DayFieldOfPad2(n: int)
    requires 1 <= n <= 31
    ensures DayField(Pad2(n)) == Some(n)
  {
    var t := Pad2(n);
    if n < 10 {
      assert t[0] == '0' && DigitValue(t[1]) == n;
    }
  }

  lemma {:induction false} MonthFieldOfPad2(n: int)
    requires 1 <= n <= 12
    ensures MonthField(Pad2(n)) == Some(n)
  {
    var t := Pad2(n);
    if n < 10 {
      assert t[0] == '0' && DigitValue(t[1]) == n;
    }
  }

  lemma {:induction false} SplitThreeOf(a: string, b: string, c: string, sep: char)
    requires sep !in a && sep !in b
    ensures SplitThree(a + [sep] + b + [sep] + c, sep) == Some((a, b, c))
  {
    var s := a + [sep] + b + [sep] + c;
    assert s == a + [sep] + (b + [sep] + c);
    BeforeConcat(a, sep, b + [sep] + c);
    assert s[|a| + 1..] == b + [sep] + c;
    BeforeConcat(b, sep, c);
  }

  /** The spellings of day `n` that `%d` accepts: two digits, and below 10 also
      one digit or a space and one digit. */
  function DaySpellings(n: int): (r: set<string>)
    requires 1 <= n <= 31
    ensures Pad2(n) in r
  {
    {Pad2(n)} + (if n < 10 then {[DigitChar(n)], [' ', DigitChar(n)]} else {})
  }

  /** The spellings of month `n` that `%m` accepts: two digits, and below 10
      also one digit. */
  function MonthSpellings(n: int): (r: set<string>)
    requires 1 <= n <= 12
    ensures Pad2(n) in r
  {
    {Pad2(n)} + (if n < 10 then {[DigitChar(n)]} else {})
  }

  /** A `%d` field reads as day `n` exactly when it is one of its spellings. */
  lemma DayFieldSpellings(t: string, n: int)
    ensures DayField(t) == Some(n) <==> 1 <= n <= 31 && t in DaySpellings(n)
  {
    if DayField(t) == Some(n) {
      if |t| == 1 && '1' <= t[0] <= '9' {
        assert t == [DigitChar(n)];
      } else if |t| == 2 && (t[0] == '0' || t[0] == ' ') && '1' <= t[1] <= '9' {
        if t[0] == '0' {
          assert t == [DigitChar(0), DigitChar(n)] == Pad2(n);
        } else {
          assert t == [' ', DigitChar(n)];
        }
      } else {
        Pad2OfDigits(t);
      }
    }
    if 1 <= n <= 31 && t in DaySpellings(n) {
      if t == Pad2(n) {
        DayFieldOfPad2(n);
      } else {
        assert DigitValue(DigitChar(n)) == n;
      }
    }
  }

  /** A `%m` field reads as month `n` exactly when it is one of its spellings. */
  lemma MonthFieldSpellings(t: string, n: int)
    ensures MonthField(t) == Some(n) <==> 1 <= n <= 12 && t in MonthSpellings(n)
  {
    if MonthField(t) == Some(n) {
      if |t| == 1 && '1' <= t[0] <= '9' {
        assert t == [DigitChar(n)];
      } else if |t| == 2 && t[0] == '0' && '1' <= t[1] <= '9' {
        assert t == [DigitChar(0), DigitChar(n)] == Pad2(n);
      } else {
        Pad2OfDigits(t);
      }
    }
    if 1 <= n <= 12 && t in MonthSpellings(n) {
      if t == Pad2(n) {
        MonthFieldOfPad2(n);
      } else {
        assert DigitValue(DigitChar(n)) == n;
      }
    }
  }

  /** A `%Y` field reads as year `y` exactly when it is `y` in four digits. */
  lemma YearFieldSpelling(t: string, y: int)
    ensures YearField(t) == Some(y) <==> 0 <= y <= 9999 && t == Pad4(y)
  {
    if |t| == 4 && AllDigits(t) {
      Pad4OfDigits(t);
    }
  }

  /** No spelling of a day or a month holds a dash. */
  lemma SpellingsHaveNoDash(a: string, b: string, day: int, month: int)
    requires 1 <= day <= 31 && 1 <= month <= 12
    requires a in DaySpellings(day) && b in MonthSpellings(month)
    ensures '-' !in a && '-' !in b
  {
    DigitsHaveNoDash(Pad2(day));
    DigitsHaveNoDash(Pad2(month));
  }

  /** `strptime(s, '%d-%m-%Y')` gives day `d` exactly when `s` spells a valid
      `d` as a day spelling, a dash, a month spelling, a dash and four year
      digits; every other text raises ValueError. */
  lemma ParseDMYSpellings(s: string, d: Date)
    ensures ParseDMY(s) == Some(d) <==>
      Valid(d) && exists a, b :: a in DaySpellings(d.day) && b in MonthSpellings(d.month) &&
                                 s == a + "-" + b + "-" + Pad4(d.year)
  {
    if ParseDMY(s) == Some(d) {
      var (dd, mm, yy) := SplitThree(s, '-').value;
      DayFieldSpellings(dd, d.day);
      MonthFieldSpellings(mm, d.month);
      YearFieldSpelling(yy, d.year);
      assert s == dd + "-" + mm + "-" + Pad4(d.year);
    }
    if Valid(d) && exists a, b :: a in DaySpellings(d.day) && b in MonthSpellings(d.month) &&
                                  s == a + "-" + b + "-" + Pad4(d.year) {
      var a, b :| a in DaySpellings(d.day) && b in MonthSpellings(d.month) && s == a + "-" + b + "-" + Pad4(d.year);
      SpellingsHaveNoDash(a, b, d.day, d.month);
      SplitThreeOf(a, b, Pad4(d.year), '-');
      DayFieldSpellings(a, d.day);
      MonthFieldSpellings(b, d.month);
      YearFieldSpelling(Pad4(d.year), d.year);
    }
  }

  /** `strptime(s, '%Y-%m-%d')` gives day `d` exactly when `s` spells a valid
      `d` as four year digits, a dash, a month spelling, a dash and a day
      spelling; every other text raises ValueError. */
  lemma ParseYMDSpellings(s: string, d: Date)
    ensures ParseYMD(s) == Some(d) <==>
      Valid(d) && exists a, b :: a in DaySpellings(d.day) && b in MonthSpellings(d.month) &&
                                 s == Pad4(d.year) + "-" + b + "-" + a
  {
    if ParseYMD(s) == Some(d) {
      var (yy, mm, dd) := SplitThree(s, '-').value;
      DayFieldSpellings(dd, d.day);
      MonthFieldSpellings(mm, d.month);
      YearFieldSpelling(yy, d.year);
      assert s == Pad4(d.year) + "-" + mm + "-" + dd;
    }
    if Valid(d) && exists a, b :: a in DaySpellings(d.day) && b in MonthSpellings(d.month) &&
                                  s == Pad4(d.year) + "-" + b + "-" + a {
      var a, b :| a in DaySpellings(d.day) && b in MonthSpellings(d.month) && s == Pad4(d.year) + "-" + b + "-" + a;
      SpellingsHaveNoDash(a, b, d.day, d.month);
      DigitsHaveNoDash(Pad4(d.year));
      SplitThreeOf(Pad4(d.year), b, a, '-');
      DayFieldSpellings(a, d.day);
      MonthFieldSpellings(b, d.month);
      YearFieldSpelling(Pad4(d.year), d.year);
    }
  }

  /** A file stem without a dash, such as `badname`, is no date. */
  lemma ParseDMYNoDash(s: string)
    requires '-' !in s
    ensures ParseDMY(s) == None
  {
  }

  /** Reading back a printed file-name date gives the same day. */
  lemma {:induction false} ParseFormatDMY(d: Date)
    requires Valid(d)
    ensures ParseDMY(FormatDMY(d)) == Some(d)
  {
    DigitsHaveNoDash(Pad2(d.day));
    DigitsHaveNoDash(Pad2(d.month));
    SplitThreeOf(Pad2(d.day), Pad2(d.month), Pad4(d.year), '-');
    DayFieldOfPad2(d.day);
    MonthFieldOfPad2(d.month);
  }

  /** Reading back a picker date gives the same day. */
  lemma {:induction false} ParseFormatYMD(d: Date)
    requires Valid(d)
    ensures ParseYMD(FormatYMD(d)) == Some(d)
  {
    DigitsHaveNoDash(Pad4(d.year));
    DigitsHaveNoDash(Pad2(d.month));
    SplitThreeOf(Pad4(d.year), Pad2(d.month), Pad2(d.day), '-');
    DayFieldOfPad2(d.day);
    MonthFieldOfPad2(d.month);
  }

  // ---------------------------------------------------------------------------
  // Day numbers and weekdays, as `date.toordinal()` and `date.weekday()`.

  function DaysBeforeYear(y: int): int
    requires y >= 1
  {
    var z := y - 1;
    z * 365 + z / 4 - z / 100 + z / 400
  }

  function DaysBeforeMonth(y: int, m: int): (n: int)
    requires 1 <= m <= 13
    decreases m
  {
    if m == 1 then 0 else DaysBeforeMonth(y, m - 1) + DaysInMonth(y, m - 1)
  }

  function DaysInYear(y: int): int { if IsLeap(y) then 366 else 365 }

  /** Day number with 1 January of year 1 as day 1. */
  function Ordinal(d: Date): int
    requires Valid(d)
  {
    DaysBeforeYear(d.year) + DaysBeforeMonth(d.year, d.month) + d.day
  }

  /** The day after `d` on the Gregorian calendar. */
  function NextDay(d: Date): (e: Date)
    requires Valid(d) && (d.year < 9999 || d.month < 12 || d.day < 31)
    ensures Valid(e) && DateLe(d, e) && d != e
  {
    if d.day < DaysInMonth(d.year, d.month) then Date(d.year, d.month, d.day + 1)
    else if d.month < 12 then Date(d.year, d.month + 1, 1)
    else Date(d.year + 1, 1, 1)
  }

  lemma {:induction false} DaysBeforeYearStep(y: int)
    requires y >= 1
    ensures DaysBeforeYear(y + 1) == DaysBeforeYear(y) + DaysInYear(y)
  {
    var z := y - 1;
    assert y / 4 == z / 4 + (if y % 4 == 0 then 1 else 0);
    assert y / 100 == z / 100 + (if y % 100 == 0 then 1 else 0);
    assert y / 400 == z / 400 + (if y % 400 == 0 then 1 else 0);
  }

  lemma DaysBeforeDecember(y: int)
    ensures DaysBeforeMonth(y, 12) + 31 == DaysInYear(y)
  {
    assert DaysBeforeMonth(y, 2) == 31;
    assert DaysBeforeMonth(y, 6) == DaysBeforeMonth(y, 3) + 92;
    assert DaysBeforeMonth(y, 10) == DaysBeforeMonth(y, 6) + 122;
  }

  /** Consecutive days have consecutive day numbers, so weekdays cycle day by day. */
  lemma {:induction false} OrdinalNextDay(d: Date)
    requires Valid(d) && d.year < 9999
    ensures Ordinal(NextDay(d)) == Ordinal(d) + 1
  {
    if d.day == DaysInMonth(d.year, d.month) && d.month == 12 {
      DaysBeforeYearStep(d.year);
      DaysBeforeDecember(d.year);
    }
  }

  /** `date.weekday()`: 0 is Monday; 1 January of year 1 was a Monday. */
  function Weekday(d: Date): (w: int)
    requires Valid(d)
    ensures 0 <= w < 7
  {
    (Ordinal(d) + 6) % 7
  }

  /** The weekday of the next day is the next weekday, Sunday wrapping to Monday. */
  lemma WeekdayNextDay(d: Date)
    requires Valid(d) && d.year < 9999
    ensures Weekday(NextDay(d)) == (Weekday(d) + 1) % 7
  {
    var o := Ordinal(d);
    OrdinalNextDay(d);
    SevenStep(o + 6);
  }

  lemma SevenStep(x: int)
    ensures (x + 1) % 7 == (x % 7 + 1) % 7
  {
  }

  /** `%A`. */
  function WeekdayName(d: Date): string
    requires Valid(d)
  {
    ["Monday", "Tuesday", "Wednesday", "Thursday", "Friday", "Saturday", "Sunday"][Weekday(d)]
  }

  /** The numbering agrees with the calendar: 1 January 2018 was a Monday and
      11 October 2026 a Sunday. */
  lemma WeekdayAnchors()
    ensures Weekday(Date(2018, 1, 1)) == 0 && WeekdayName(Date(2018, 1, 1)) == "Monday"
    ensures Weekday(Date(2026, 10, 11)) == 6 && WeekdayName(Date(2026, 10, 11)) == "Sunday"
  {
    assert DaysBeforeYear(2018) == 736694;
    assert DaysBeforeYear(2026) == 739616;
    assert DaysBeforeMonth(2026, 10) == 273;
  }

  /** `%B`. */
  function MonthName(m: int): string
    requires 1 <= m <= 12
  {
    ["January", "February", "March", "April", "May", "June", "July",
     "August", "September", "October", "November", "December"][m - 1]
  }

  /** `date.strftime('%A, %d %B %Y')`: the weekday's name, a comma, the
      two-digit day, the month's name and the four-digit year. */
  function LongForm(d: Date): (s: string)
    requires Valid(d)
    ensures var w := WeekdayName(d);
      && |s| == |w| + 2 + 2 + 1 + |MonthName(d.month)| + 1 + 4
      && s[..|w| + 2] == w + ", "
      && AllDigits(s[|w| + 2..|w| + 4]) && DigitsValue(s[|w| + 2..|w| + 4]) == d.day
      && s[|w| + 4..|s| - 5] == " " + MonthName(d.month) && s[|s| - 5] == ' '
      && AllDigits(s[|s| - 4..]) && DigitsValue(s[|s| - 4..]) == d.year
  {
    var w := WeekdayName(d);
    var s := w + ", " + Pad2(d.day) + " " + MonthName(d.month) + " " + Pad4(d.year);
    assert s[..|w| + 2] == w + ", ";
    assert s[|w| + 2..|w| + 4] == Pad2(d.day);
    assert s[|w| + 4..|s| - 5] == " " + MonthName(d.month);
    assert s[|s| - 4..] == Pad4(d.year);
    s
  }
}

=== FILE: funcs.dfy ===
/** The data-access helpers of the dashboard (src_dash/funcs.py): locating a
    day's file by a date substring, scanning folders for the available date
    range, the site and output catalogues, the two readers and the merge of
    the five sources into one 96-row table.

    The file system is an input: a folder is the list `os.listdir` returns,
    each entry with the `os.path.isfile` flag and what the reader library
    would load from it. Tables are reduced to their column names and row
    count; the values themselves (floats and NaN) are not modelled. */
module Funcs {
  import opened Outcomes
  import opened Text
  import opened Seqs
  import opened Calendar

  /** A table as far as this logic looks at it: column names in order and the row count. */
  datatype Frame = Frame(columns: seq<string>, rows: nat)

  /** What the reader library loads from a file: one table, or a workbook of named sheets. */
  datatype Content = Table(frame: Frame) | Workbook(sheets: map<string, Frame>)

  /** One folder entry: its name, whether it is a regular file, and its content. */
  datatype Entry = Entry(name: string, isFile: bool, content: Content)

  /** A folder, in the order `os.listdir` lists it. */
  type Folder = seq<Entry>

  function Listdir(folder: Folder): (names: seq<string>)
    ensures |names| == |folder|
    ensures forall i :: 0 <= i < |folder| ==> names[i] == folder[i].name
  {
    seq(|folder|, i requires 0 <= i < |folder| => folder[i].name)
  }

  // ---------------------------------------------------------------------------
  // get_file_name_for_date

  /** The text searched for: the given date string, or else today's date as `DD-MM-YYYY`. */
  function SearchKey(date: Option<string>, today: Date): (key: string)
    requires Valid(today)
    ensures date.Some? ==> key == date.value
    ensures date.None? ==> key == FormatDMY(today) && ParseDMY(key) == Some(today)
  {
    match date
    case Some(s) => s
    case None => ParseFormatDMY(today); FormatDMY(today)
  }

  /** Entry `i` of `names` contains `key`. */
  predicate MatchesAt(names: seq<string>, key: string, i: int)
  {
    0 <= i < |names| && Contains(names[i], key)
  }

  /** The name holding `key`, when exactly one name does; FileNotFoundError otherwise. */
  function Locate(names: seq<string>, key: string): (r: Result<string>)
    ensures r.Ok? ==> r.value in names && Contains(r.value, key)
    ensures r.Err? ==> r.error == FileNotFoundError
  {
    var files := Filter(names, n => Contains(n, key));
    if |files| == 1 then
      assert files[0] in files;
      Ok(files[0])
    else Err(FileNotFoundError)
  }

  /** `get_file_name_for_date(folder, date_)`, with the clock's reading as `today`. */
  function GetFileNameForDate(names: seq<string>, date: Option<string>, today: Date): (r: Result<string>)
    requires Valid(today)
    ensures r.Ok? ==> r.value in names && Contains(r.value, SearchKey(date, today))
    ensures r.Err? ==> r.error == FileNotFoundError
  {
    Locate(names, SearchKey(date, today))
  }

  /** The locator succeeds exactly on a unique match: the matching name when
      one entry holds the key, FileNotFoundError when none does and when two do. */
  lemma LocateCases(names: seq<string>, key: string)
    ensures forall i :: MatchesAt(names, key, i) && (forall j :: MatchesAt(names, key, j) ==> j == i)
                        ==> Locate(names, key) == Ok(names[i])
    ensures (forall i :: !MatchesAt(names, key, i)) ==> Locate(names, key) == Err(FileNotFoundError)
    ensures forall i, j :: MatchesAt(names, key, i) && MatchesAt(names, key, j) && i != j
                           ==> Locate(names, key) == Err(FileNotFoundError)
  {
    var p := (n: string) => Contains(n, key);
    assert forall j :: 0 <= j < |names| ==> (p(names[j]) <==> MatchesAt(names, key, j));
    forall i | MatchesAt(names, key, i) && (forall j :: MatchesAt(names, key, j) ==> j == i)
      ensures Locate(names, key) == Ok(names[i])
    {
      FilterSingle(names, p, i);
    }
    if forall i :: !MatchesAt(names, key, i) {
      FilterNone(names, p);
    }
    forall i, j | MatchesAt(names, key, i) && MatchesAt(names, key, j) && i != j
      ensures Locate(names, key) == Err(FileNotFoundError)
    {
      if i < j { FilterTwo(names, p, i, j); } else { FilterTwo(names, p, j, i); }
    }
  }

  /** The entry called `name`, if the folder lists one. */
  function Open(folder: Folder, name: string): (r: Option<Entry>)
    ensures r.Some? ==> r.value in folder && r.value.name == name
    ensures r.None? ==> name !in Listdir(folder)
  {
    if folder == [] then None
    else if folder[0].name == name then Some(folder[0])
    else
      var r := Open(folder[1..], name);
      assert Listdir(folder) == [folder[0].name] + Listdir(folder[1..]);
      r
  }

  /** `pd.read_csv` on the named entry: its table, or a reader failure. */
  function ReadTable(folder: Folder, name: string): (r: Result<Frame>)
    ensures r.Err? ==> r.error == ReadFailure
  {
    match Open(folder, name)
    case Some(Entry(_, true, Table(f))) => Ok(f)
    case _ => Err(ReadFailure)
  }

  // ---------------------------------------------------------------------------
  // get_site_options and get_outputs_to_show

  /** One option of a dropdown or checklist: `dict(label=..., value=...)`, the label kept as `caption`. */
  datatype Choice = Choice(caption: string, value: string)

  function Values(opts: seq<Choice>): (vs: seq<string>)
    ensures |vs| == |opts| && forall i :: 0 <= i < |opts| ==> vs[i] == opts[i].value
  {
    seq(|opts|, i requires 0 <= i < |opts| => opts[i].value)
  }

  /** The site dropdown built from the actual-output file's header: every
      column whose name lacks `Time`, in ascending order, labelled by itself. */
  function SiteChoices(columns: seq<string>): (opts: seq<Choice>)
    ensures forall i :: 0 <= i < |opts| ==> opts[i].caption == opts[i].value
    ensures Sorted(Values(opts))
    ensures multiset(Values(opts)) == multiset(Filter(columns, c => !Contains(c, "Time")))
  {
    var sites := Sort(Filter(columns, c => !Contains(c, "Time")));
    var opts := seq(|sites|, i requires 0 <= i < |sites| => Choice(sites[i], sites[i]));
    assert Values(opts) == sites;
    opts
  }

  /** `get_site_options(destination)`: today's file of the folder, its header turned into choices. */
  function GetSiteOptions(folder: Folder, today: Date): (r: Result<seq<Choice>>)
    requires Valid(today)
    ensures r.Err? ==> r.error in {FileNotFoundError, ReadFailure}
    ensures GetFileNameForDate(Listdir(folder), None, today).Err? ==> r == Err(FileNotFoundError)
    ensures r.Ok? ==> exists name, f :: GetFileNameForDate(Listdir(folder), None, today) == Ok(name)
                                       && ReadTable(folder, name) == Ok(f) && r.value == SiteChoices(f.columns)
  {
    match GetFileNameForDate(Listdir(folder), None, today)
    case Err(e) => Err(e)
    case Ok(name) =>
      match ReadTable(folder, name)
      case Err(e) => Err(e)
      case Ok(f) => Ok(SiteChoices(f.columns))
  }

  /** The five series names of the output checklist, in display order. */
  const OutputNames: seq<string> := ["Actual", "Day Ahead Ensemble", "Satellite", "IntraDay", "Logs"]

  /** `get_outputs_to_show()`: one choice per series name, labelled by itself. */
  function GetOutputsToShow(): (opts: seq<Choice>)
    ensures Values(opts) == OutputNames
    ensures forall i :: 0 <= i < |opts| ==> opts[i].caption == opts[i].value
  {
    seq(|OutputNames|, i requires 0 <= i < |OutputNames| => Choice(OutputNames[i], OutputNames[i]))
  }

  // ---------------------------------------------------------------------------
  // read_csv_data and read_excel_sheets

  /** Rows kept of a site column: the slice `[:95]`. */
  const SliceRows: nat := 95

  /** `read_csv_data(destination, date, site)`: the day's table, or with a
      site only that column cut to its first 95 rows. */
  function ReadCsvData(folder: Folder, date: string, site: Option<string>): (r: Result<Frame>)
    ensures r.Err? ==> r.error in {FileNotFoundError, ReadFailure, KeyError}
    ensures r == Err(FileNotFoundError) <==> Locate(Listdir(folder), date).Err?
    ensures r.Ok? && site.Some? ==> r.value.columns == [site.value] && r.value.rows <= SliceRows
  {
    match Locate(Listdir(folder), date)
    case Err(e) => Err(e)
    case Ok(name) =>
      match ReadTable(folder, name)
      case Err(e) => Err(e)
      case Ok(f) =>
        if site.None? then Ok(f)
        else if site.value !in f.columns then Err(KeyError)
        else Ok(Frame([site.value], if f.rows < SliceRows then f.rows else SliceRows))
  }

  /** The site column keeps the file's rows up to the 95th and drops the rest. */
  lemma CsvSiteRows(folder: Folder, date: string, site: string, name: string, f: Frame)
    requires Locate(Listdir(folder), date) == Ok(name) && ReadTable(folder, name) == Ok(f)
    ensures site in f.columns ==> ReadCsvData(folder, date, Some(site)) == Ok(Frame([site], if f.rows < 95 then f.rows else 95))
    ensures site !in f.columns ==> ReadCsvData(folder, date, Some(site)) == Err(KeyError)
    ensures ReadCsvData(folder, date, None) == Ok(f)
  {
  }

  /** `iloc[:, -2:]` then `[col[-8:] for col in columns]`: the last two column
      names, each cut to its last eight characters. */
  function LogColumnNames(columns: seq<string>): (r: seq<string>)
    ensures |r| == if |columns| < 2 then |columns| else 2
    ensures forall i :: 0 <= i < |r| ==> r[i] == Suffix(columns[|columns| - |r| + i], 8)
  {
    var kept := if |columns| <= 2 then columns else columns[|columns| - 2..];
    seq(|kept|, i requires 0 <= i < |kept| => Suffix(kept[i], 8))
  }

  /** `read_excel_sheets(destination, date, site)`: the site's sheet of the day's
      workbook reduced to its last two columns, renamed to their last 8 characters. */
  function ReadExcelSheets(folder: Folder, date: string, site: string): (r: Result<Frame>)
    ensures r.Err? ==> r.error in {FileNotFoundError, ReadFailure, AttributeError}
    ensures r == Err(FileNotFoundError) <==> Locate(Listdir(folder), date).Err?
    ensures r.Ok? ==> |r.value.columns| <= 2 && forall c :: c in r.value.columns ==> |c| <= 8
  {
    match Locate(Listdir(folder), date)
    case Err(e) => Err(e)
    case Ok(name) =>
      match Open(folder, name)
      case Some(Entry(_, true, Workbook(sheets))) =>
        if site in sheets then Ok(Frame(LogColumnNames(sheets[site].columns), sheets[site].rows))
        else Err(AttributeError)
      case _ => Err(ReadFailure)
  }

  /** Once the day's file is found: the site's sheet of a workbook gives its
      last two columns renamed and all its rows; a workbook without the sheet
      is AttributeError (`None.iloc`); anything else fails in the reader. */
  lemma ReadExcelSheetsCases(folder: Folder, date: string, site: string, name: string)
    requires Locate(Listdir(folder), date) == Ok(name)
    ensures forall sheets: map<string, Frame> :: Open(folder, name) == Some(Entry(name, true, Workbook(sheets))) ==>
      && (site in sheets ==>
            ReadExcelSheets(folder, date, site) == Ok(Frame(LogColumnNames(sheets[site].columns), sheets[site].rows)))
      && (site !in sheets ==> ReadExcelSheets(folder, date, site) == Err(AttributeError))
    ensures (Open(folder, name).None? || !Open(folder, name).value.isFile || !Open(folder, name).value.content.Workbook?)
      ==> ReadExcelSheets(folder, date, site) == Err(ReadFailure)
  {
  }

  // ---------------------------------------------------------------------------
  // get_dates_in_dir and get_min_max_dates

  /** `get_dates_in_dir(destination)`: for every regular file, in listing order,
      its name up to the first `.`. */
  function GetDatesInDir(folder: Folder): (stems: seq<string>)
    ensures |stems| <= |folder|
    ensures forall s :: s in stems ==> '.' !in s
  {
    if folder == [] then []
    else (if folder[0].isFile then [Stem(folder[0].name)] else []) + GetDatesInDir(folder[1..])
  }

  /** A stem is listed exactly when some regular file of the folder has it; directories give none. */
  lemma {:induction false} GetDatesInDirMembers(folder: Folder)
    ensures forall s :: s in GetDatesInDir(folder) <==> exists e :: e in folder && e.isFile && Stem(e.name) == s
  {
    if folder != [] {
      GetDatesInDirMembers(folder[1..]);
      assert forall e :: e in folder <==> e == folder[0] || e in folder[1..];
    }
  }

  /** The stems follow the listing: scanning two listings one after the other
      gives the first one's stems, then the second one's. */
  lemma {:induction false} GetDatesInDirAppend(a: Folder, b: Folder)
    ensures GetDatesInDir(a + b) == GetDatesInDir(a) + GetDatesInDir(b)
  {
    if a == [] {
      assert a + b == b;
    } else {
      assert (a + b)[0] == a[0] && (a + b)[1..] == a[1..] + b;
      GetDatesInDirAppend(a[1..], b);
    }
  }

  /** The housekeeping filter: no `log`, `scaled` or `copy`, and more than one character. */
  predicate Admissible(item: string)
  {
    !Contains(item, "log") && !Contains(item, "scaled") && |item| > 1 && !Contains(item, "copy")
  }

  /** A stem that is not a date, such as that of `badname.csv`, adds no date. */
  lemma BadNameSkipped()
    ensures ScanDates(["badname"]) == []
  {
    ParseDMYNoDash("badname");
    assert ["badname"][..0] == [];
  }

  /** Which file stems survive the filter: a name of digits and dashes does;
      a copy, a log, a scaled file or a name of at most one character does not. */
  lemma AdmissibleCases(s: string)
    ensures |s| > 1 && (forall i :: 0 <= i < |s| ==> IsDigit(s[i]) || s[i] == '-') ==> Admissible(s)
    ensures !Admissible(s + " copy") && !Admissible(s + "_log") && !Admissible("scaled_" + s)
    ensures |s| <= 1 ==> !Admissible(s)
  {
    if |s| > 1 && (forall i :: 0 <= i < |s| ==> IsDigit(s[i]) || s[i] == '-') {
      NotContainsFirst(s, "log");
      NotContainsFirst(s, "scaled");
      NotContainsFirst(s, "copy");
    }
    OccursExample(s + " copy", "copy", |s| + 1);
    OccursExample(s + "_log", "log", |s| + 1);
    OccursExample("scaled_" + s, "scaled", 0);
  }

  /** Every day's own file name passes the filter, so no dated file is skipped. */
  lemma FormatAdmissible(d: Date)
    requires Valid(d)
    ensures Admissible(FormatDMY(d))
  {
    var s := FormatDMY(d);
    forall i | 0 <= i < |s| ensures IsDigit(s[i]) || s[i] == '-' {
      if i < 2 { assert s[i] == s[..2][i]; }
      else if 2 < i < 5 { assert s[i] == s[3..5][i - 3]; }
      else if 5 < i { assert s[i] == s[6..][i - 6]; }
    }
    AdmissibleCases(s);
  }

  /** The dates the scan keeps from `items`, in order: admissible items that parse as `DD-MM-YYYY`. */
  function ScanDates(items: seq<string>): (ds: seq<Date>)
    ensures forall d :: d in ds ==> Valid(d)
  {
    if items == [] then []
    else
      var last := items[|items| - 1];
      ScanDates(items[..|items| - 1]) + (if Admissible(last) && ParseDMY(last).Some? then [ParseDMY(last).value] else [])
  }

  /** A date is collected exactly when some admissible item parses to it;
      items that fail to parse are skipped, not reported. */
  lemma {:induction false} ScanDatesMembers(items: seq<string>)
    ensures forall d :: d in ScanDates(items) <==> exists x :: x in items && Admissible(x) && ParseDMY(x) == Some(d)
  {
    if items != [] {
      var init := items[..|items| - 1];
      ScanDatesMembers(init);
      assert items == init + [items[|items| - 1]];
      assert forall x :: x in items <==> x in init || x == items[|items| - 1];
    }
  }

  /** The per-folder stem lists, in argument order (`all_files`). */
  function StemLists(dirs: seq<Folder>): (xss: seq<seq<string>>)
    ensures |xss| == |dirs| && forall i :: 0 <= i < |dirs| ==> xss[i] == GetDatesInDir(dirs[i])
  {
    seq(|dirs|, i requires 0 <= i < |dirs| => GetDatesInDir(dirs[i]))
  }

  /** One step of the first loop: the stem lists of a longer prefix of the folders. */
  lemma StemListsStep(dirs: seq<Folder>, i: nat)
    requires i < |dirs|
    ensures StemLists(dirs[..i + 1]) == StemLists(dirs[..i]) + [GetDatesInDir(dirs[i])]
  {
    var a, b := StemLists(dirs[..i + 1]), StemLists(dirs[..i]) + [GetDatesInDir(dirs[i])];
    assert |a| == |b|;
    forall k | 0 <= k < |a| ensures a[k] == b[k] {
      assert dirs[..i + 1][k] == if k < i then dirs[..i][k] else dirs[i];
    }
  }

  /** One step of the second loop: the dates of a longer prefix of the items. */
  lemma ScanDatesStep(items: seq<string>, k: nat)
    requires k < |items|
    ensures ScanDates(items[..k + 1]) == ScanDates(items[..k])
      + (if Admissible(items[k]) && ParseDMY(items[k]).Some? then [ParseDMY(items[k]).value] else [])
  {
    assert items[..k + 1][..k] == items[..k];
  }

  /** The dates that `get_min_max_dates` collects from the folders `dirs`. */
  function DatesIn(dirs: seq<Folder>): seq<Date>
  {
    ScanDates(Flatten(StemLists(dirs)))
  }

  /** A date is collected exactly when some regular file of one of the folders
      has a stem that passes the housekeeping filter and parses to it. */
  lemma DatesInMembers(dirs: seq<Folder>)
    ensures forall d :: d in DatesIn(dirs) <==>
      exists k, e :: 0 <= k < |dirs| && e in dirs[k] && e.isFile && Admissible(Stem(e.name)) && ParseDMY(Stem(e.name)) == Some(d)
  {
    var xss := StemLists(dirs);
    ScanDatesMembers(Flatten(xss));
    FlattenMembers(xss);
    forall k | 0 <= k < |dirs| ensures forall s :: s in xss[k] <==> exists e :: e in dirs[k] && e.isFile && Stem(e.name) == s {
      GetDatesInDirMembers(dirs[k]);
    }
    forall d | d in DatesIn(dirs)
      ensures exists k, e :: 0 <= k < |dirs| && e in dirs[k] && e.isFile && Admissible(Stem(e.name)) && ParseDMY(Stem(e.name)) == Some(d)
    {
      var x :| x in Flatten(xss) && Admissible(x) && ParseDMY(x) == Some(d);
      var k :| 0 <= k < |xss| && x in xss[k];
      var e :| e in dirs[k] && e.isFile && Stem(e.name) == x;
    }
    forall d, k, e | 0 <= k < |dirs| && e in dirs[k] && e.isFile && Admissible(Stem(e.name)) && ParseDMY(Stem(e.name)) == Some(d)
      ensures d in DatesIn(dirs)
    {
      assert Stem(e.name) in xss[k];
    }
  }

  /** Python's `min` over a non-empty list of dates. */
  function MinDate(ds: seq<Date>): (m: Date)
    requires ds != []
    ensures m in ds && forall d :: d in ds ==> DateLe(m, d)
  {
    if |ds| == 1 then ds[0]
    else
      var m := MinDate(ds[1..]);
      assert forall d :: d in ds ==> d == ds[0] || d in ds[1..];
      if DateLe(ds[0], m) then ds[0] else m
  }

  /** Python's `max` over a non-empty list of dates. */
  function MaxDate(ds: seq<Date>): (m: Date)
    requires ds != []
    ensures m in ds && forall d :: d in ds ==> DateLe(d, m)
  {
    if |ds| == 1 then ds[0]
    else
      var m := MaxDate(ds[1..]);
      assert forall d :: d in ds ==> d == ds[0] || d in ds[1..];
      if DateLe(m, ds[0]) then ds[0] else m
  }

  /** The body of `get_min_max_dates` over the folders bound to `*args`: the
      earliest and latest accepted date, or the ValueError `min` raises when
      no file name was accepted. */
  method GetMinMaxDates(dirs: seq<Folder>) returns (r: Result<(Date, Date)>)
    ensures r.Err? <==> DatesIn(dirs) == []
    ensures r.Err? ==> r.error == ValueError
    ensures r.Ok? ==> r.value.0 in DatesIn(dirs) && r.value.1 in DatesIn(dirs)
    ensures r.Ok? ==> forall d :: d in DatesIn(dirs) ==> DateLe(r.value.0, d) && DateLe(d, r.value.1)
  {
    var allFiles: seq<seq<string>> := [];
    for i := 0 to |dirs|
      invariant allFiles == StemLists(dirs[..i])
    {
      StemListsStep(dirs, i);
      allFiles := allFiles + [GetDatesInDir(dirs[i])];
    }
    assert dirs[..|dirs|] == dirs;
    var flat := Flatten(allFiles);
    var dates: seq<Date> := [];
    for k := 0 to |flat|
      invariant dates == ScanDates(flat[..k])
    {
      var item := flat[k];
      ScanDatesStep(flat, k);
      if Admissible(item) {
        var parsed := ParseDMY(item);
        if parsed.Some? {
          dates := dates + [parsed.value];
        }
      }
    }
    assert flat[..|flat|] == flat;
    assert dates == DatesIn(dirs);
    if dates == [] {
      return Err(ValueError);
    }
    r := Ok((MinDate(dates), MaxDate(dates)));
  }

  /** How Python binds the positional arguments of `get_min_max_dates(verbose=False, *args)`:
      the first fills `verbose`, only the others reach `args`. */
  datatype MinMaxBinding = MinMaxBinding(verbose: Option<Folder>, args: seq<Folder>)

  function BindMinMaxArguments(positional: seq<Folder>): (b: MinMaxBinding)
    ensures positional == [] ==> b == MinMaxBinding(None, [])
    ensures positional != [] ==> b.verbose == Some(positional[0]) && [positional[0]] + b.args == positional
  {
    if positional == [] then MinMaxBinding(None, [])
    else
      assert positional == [positional[0]] + positional[1..];
      MinMaxBinding(Some(positional[0]), positional[1..])
  }

  /** The dashboard's start-up call `get_min_max_dates(real, logs, day_ahead, satellite)`:
      the actual-output folder lands in `verbose` and is never scanned. */
  method StartupDateRange(actual: Folder, logs: Folder, dayAhead: Folder, satellite: Folder)
    returns (r: Result<(Date, Date)>)
    ensures r.Err? <==> DatesIn([logs, dayAhead, satellite]) == []
    ensures r.Ok? ==> forall d :: d in DatesIn([logs, dayAhead, satellite]) ==> DateLe(r.value.0, d) && DateLe(d, r.value.1)
    ensures r.Ok? ==> r.value.0 in DatesIn([logs, dayAhead, satellite]) && r.value.1 in DatesIn([logs, dayAhead, satellite])
  {
    var b := BindMinMaxArguments([actual, logs, dayAhead, satellite]);
    assert b.args == [logs, dayAhead, satellite];
    r := GetMinMaxDates(b.args);
  }

  /** Dates in the actual-output folder do not count: whatever it holds, the
      scanned dates are those of the other three folders. */
  lemma StartupIgnoresRealFolder(actual: Folder, logs: Folder, dayAhead: Folder, satellite: Folder)
    ensures BindMinMaxArguments([actual, logs, dayAhead, satellite]).args == [logs, dayAhead, satellite]
    ensures BindMinMaxArguments([actual, logs, dayAhead, satellite]).verbose == Some(actual)
  {
    var b := BindMinMaxArguments([actual, logs, dayAhead, satellite]);
    assert [actual] + b.args == [actual, logs, dayAhead, satellite];
    assert b.args == [actual, logs, dayAhead, satellite][1..];
  }

  /** `dates_ = list(set(dates_))` changes neither end of the range: any two
      lists holding the same dates, in any order and with any repeats, have
      the same earliest and latest date. */
  lemma DedupKeepsRange(ds: seq<Date>, es: seq<Date>)
    requires ds != [] && forall d :: d in ds <==> d in es
    ensures MinDate(ds) == MinDate(es) && MaxDate(ds) == MaxDate(es)
  {
    var lo, lo' := MinDate(ds), MinDate(es);
    assert DateLe(lo, lo') && DateLe(lo', lo);
    var hi, hi' := MaxDate(ds), MaxDate(es);
    assert DateLe(hi, hi') && DateLe(hi', hi);
  }

  // ---------------------------------------------------------------------------
  // read_all_data_for_date_site

  /** Quarter-hours in a day: the merged table's length and the placeholder's. */
  const DayRows: nat := 96

  /** Label `i` of the time axis: `HH:MM`, 15·i minutes after midnight. */
  function TimeLabel(i: nat): (s: string)
    requires i < DayRows
    ensures |s| == 5 && s[2] == ':' && AllDigits(s[..2]) && AllDigits(s[3..])
    ensures DigitsValue(s[..2]) == 15 * i / 60 && DigitsValue(s[3..]) == 15 * i % 60
    ensures DigitsValue(s[..2]) < 24 && DigitsValue(s[3..]) < 60
    ensures DigitsValue(s[..2]) * 60 + DigitsValue(s[3..]) == 15 * i
  {
    var s := Pad2(15 * i / 60) + ":" + Pad2(15 * i % 60);
    assert s[..2] == Pad2(15 * i / 60) && s[3..] == Pad2(15 * i % 60);
    s
  }

  /** The 96 labels of `pd.date_range('1/1/2018', periods=96, freq='15T')` formatted `%H:%M`. */
  function TimeAxis(): (axis: seq<string>)
    ensures |axis| == DayRows
    ensures forall i :: 0 <= i < DayRows ==> axis[i] == TimeLabel(i)
  {
    seq(DayRows, i requires 0 <= i < DayRows => TimeLabel(i))
  }

  /** The axis runs from `00:00` to `23:45` in strictly increasing order, so no label repeats. */
  lemma TimeAxisOrdered()
    ensures TimeAxis()[0] == "00:00" && TimeAxis()[DayRows - 1] == "23:45"
    ensures forall i, j :: 0 <= i < j < DayRows ==> StrLt(TimeAxis()[i], TimeAxis()[j])
  {
    forall i, j | 0 <= i < j < DayRows ensures StrLt(TimeAxis()[i], TimeAxis()[j]) {
      TimeLabelOrder(i, j);
    }
  }

  lemma TimeLabelOrder(i: nat, j: nat)
    requires i < j < DayRows
    ensures StrLt(TimeLabel(i), TimeLabel(j))
  {
    var hi, mi, hj, mj := 15 * i / 60, 15 * i % 60, 15 * j / 60, 15 * j % 60;
    assert TimeLabel(i) == Pad2(hi) + (":" + Pad2(mi));
    assert TimeLabel(j) == Pad2(hj) + (":" + Pad2(mj));
    if hi < hj {
      Pad2Order(hi, hj, ":" + Pad2(mi), ":" + Pad2(mj));
    } else {
      assert hi == hj && mi < mj;
      Pad2Order(mi, mj, [], []);
      assert Pad2(mi) + [] == Pad2(mi) && Pad2(mj) + [] == Pad2(mj);
      PrefixOrder(Pad2(hi) + ":", Pad2(mi), Pad2(mj));
      assert Pad2(hi) + ":" + Pad2(mi) == Pad2(hi) + (":" + Pad2(mi));
      assert Pad2(hj) + ":" + Pad2(mj) == Pad2(hj) + (":" + Pad2(mj));
    }
  }

  /** The five folders of the configuration, one per source. */
  datatype Sources = Sources(actual: Folder, intraDay: Folder, dayAheadEnsemble: Folder,
                             satellite: Folder, logs: Folder)

  /** The merged day table once its index is the time axis. */
  datatype Merged = Merged(columns: seq<string>, index: seq<string>)

  /** A site series after its `except FileNotFoundError` fallback and `.name = name`. */
  function NamedSeries(read: Result<Frame>, name: string): (r: Result<Frame>)
    ensures r.Ok? <==> read.Ok? || read.error == FileNotFoundError
    ensures r.Ok? ==> r.value.columns == [name]
    ensures r.Ok? ==> r.value.rows == if read.Ok? then read.value.rows else DayRows
    ensures r.Err? ==> r == read
  {
    match read
    case Ok(f) => Ok(Frame([name], f.rows))
    case Err(e) => if e == FileNotFoundError then Ok(Frame([name], DayRows)) else Err(e)
  }

  /** The log sheet after its fallback: the sheet itself (`.name` does not rename
      a table's columns), or a 96-row series named `Logs`. */
  function LogTable(read: Result<Frame>): (r: Result<Frame>)
    ensures r.Ok? <==> read.Ok? || read.error == FileNotFoundError
    ensures r.Ok? ==> r.value == if read.Ok? then read.value else Frame(["Logs"], DayRows)
    ensures r.Err? ==> r == read
  {
    match read
    case Ok(f) => Ok(f)
    case Err(e) => if e == FileNotFoundError then Ok(Frame(["Logs"], DayRows)) else Err(e)
  }

  /** `pd.merge(left, right, left_index=True, right_index=True, how='outer')` on
      tables indexed 0, 1, ...: the left columns then the right ones, and as many
      rows as the longer side. */
  function OuterJoin(left: Frame, right: Frame): (t: Frame)
    ensures t.columns == left.columns + right.columns
    ensures t.rows >= left.rows && t.rows >= right.rows
    ensures t.rows == left.rows || t.rows == right.rows
  {
    Frame(left.columns + right.columns, if left.rows < right.rows then right.rows else left.rows)
  }

  /** A read the merge absorbs: it succeeded, or its file was missing. */
  predicate Caught(read: Result<Frame>) { read.Ok? || read.error == FileNotFoundError }

  /** The rows a source brings to the join: its own, or the placeholder's 96. */
  function RowsOf(read: Result<Frame>): nat { if read.Ok? then read.value.rows else DayRows }

  /** The merge of the five reads, in the order the source performs them
      (actual, intraday, day-ahead ensemble, satellite, logs). */
  function Combine(actual: Result<Frame>, intraDay: Result<Frame>, dayAhead: Result<Frame>,
                   satellite: Result<Frame>, logs: Result<Frame>): (r: Result<Merged>)
    ensures r.Ok? ==> r.value.index == TimeAxis()
    ensures r.Err? ==> r.error != FileNotFoundError
  {
    var a := NamedSeries(actual, "Actual");
    var i := NamedSeries(intraDay, "IntraDay");
    var d := NamedSeries(dayAhead, "Day Ahead Ensemble");
    var s := NamedSeries(satellite, "Satellite");
    var l := LogTable(logs);
    if a.Err? then Err(a.error)
    else if i.Err? then Err(i.error)
    else if d.Err? then Err(d.error)
    else if s.Err? then Err(s.error)
    else if l.Err? then Err(l.error)
    else
      var t := OuterJoin(OuterJoin(OuterJoin(OuterJoin(i.value, d.value), s.value), l.value), a.value);
      if t.rows != DayRows then Err(ValueError) else Ok(Merged(t.columns, TimeAxis()))
  }

  /** What `read_all_data_for_date_site` returns for a day and a site. */
  function MergeAll(src: Sources, date: string, site: string): (r: Result<Merged>)
    ensures r.Ok? ==> |r.value.index| == DayRows
    ensures r.Err? ==> r.error != FileNotFoundError
  {
    Combine(ReadCsvData(src.actual, date, Some(site)), ReadCsvData(src.intraDay, date, Some(site)),
            ReadCsvData(src.dayAheadEnsemble, date, Some(site)), ReadCsvData(src.satellite, date, Some(site)),
            ReadExcelSheets(src.logs, date, site))
  }

  /** A successful merge is indexed by the 96 time labels and has the columns
      `IntraDay, Day Ahead Ensemble, Satellite`, then the log sheet's columns or
      the `Logs` placeholder, then `Actual`. */
  lemma CombineShape(actual: Result<Frame>, intraDay: Result<Frame>, dayAhead: Result<Frame>,
                     satellite: Result<Frame>, logs: Result<Frame>)
    ensures var m := Combine(actual, intraDay, dayAhead, satellite, logs);
      m.Ok? ==> m.value.index == TimeAxis() && |m.value.index| == DayRows &&
                m.value.columns == ["IntraDay", "Day Ahead Ensemble", "Satellite"]
                                   + (if logs.Ok? then logs.value.columns else ["Logs"]) + ["Actual"]
  {
    var m := Combine(actual, intraDay, dayAhead, satellite, logs);
    if m.Ok? {
      var l := LogTable(logs);
      assert l.value.columns == if logs.Ok? then logs.value.columns else ["Logs"];
    }
  }

  /** Only a missing file is absorbed: the merge succeeds exactly when every read
      succeeded or found no file and the joined table has 96 rows; otherwise the
      first other error is raised, or ValueError for a wrong row count. */
  lemma CombineOutcome(actual: Result<Frame>, intraDay: Result<Frame>, dayAhead: Result<Frame>,
                       satellite: Result<Frame>, logs: Result<Frame>)
    ensures var m := Combine(actual, intraDay, dayAhead, satellite, logs);
      var rows := [RowsOf(actual), RowsOf(intraDay), RowsOf(dayAhead), RowsOf(satellite), RowsOf(logs)];
      var all := Caught(actual) && Caught(intraDay) && Caught(dayAhead) && Caught(satellite) && Caught(logs);
      && (m.Ok? <==> all && (forall k :: 0 <= k < 5 ==> rows[k] <= DayRows) && DayRows in rows)
      && (!Caught(actual) ==> m == Err(actual.error))
      && (Caught(actual) && !Caught(intraDay) ==> m == Err(intraDay.error))
      && (Caught(actual) && Caught(intraDay) && !Caught(dayAhead) ==> m == Err(dayAhead.error))
      && (Caught(actual) && Caught(intraDay) && Caught(dayAhead) && !Caught(satellite) ==> m == Err(satellite.error))
      && (Caught(actual) && Caught(intraDay) && Caught(dayAhead) && Caught(satellite) && !Caught(logs) ==> m == Err(logs.error))
      && (all && m.Err? ==> m == Err(ValueError))
  {
    if Caught(actual) && Caught(intraDay) && Caught(dayAhead) && Caught(satellite) && Caught(logs) {
      CombineRows(actual, intraDay, dayAhead, satellite, logs);
    } else {
      CombineFirstError(actual, intraDay, dayAhead, satellite, logs);
    }
  }

  /** A read the merge does not absorb ends it with that read's error, the
      earliest such read in merge order winning. */
  lemma CombineFirstError(actual: Result<Frame>, intraDay: Result<Frame>, dayAhead: Result<Frame>,
                          satellite: Result<Frame>, logs: Result<Frame>)
    ensures var m := Combine(actual, intraDay, dayAhead, satellite, logs);
      && (!Caught(actual) ==> m == Err(actual.error))
      && (Caught(actual) && !Caught(intraDay) ==> m == Err(intraDay.error))
      && (Caught(actual) && Caught(intraDay) && !Caught(dayAhead) ==> m == Err(dayAhead.error))
      && (Caught(actual) && Caught(intraDay) && Caught(dayAhead) && !Caught(satellite) ==> m == Err(satellite.error))
      && (Caught(actual) && Caught(intraDay) && Caught(dayAhead) && Caught(satellite) && !Caught(logs) ==> m == Err(logs.error))
  {
  }

  /** With every read absorbed, the joined table has the longest of the five row counts. */
  lemma CombineRows(actual: Result<Frame>, intraDay: Result<Frame>, dayAhead: Result<Frame>,
                    satellite: Result<Frame>, logs: Result<Frame>)
    requires Caught(actual) && Caught(intraDay) && Caught(dayAhead) && Caught(satellite) && Caught(logs)
    ensures var rows := [RowsOf(actual), RowsOf(intraDay), RowsOf(dayAhead), RowsOf(satellite), RowsOf(logs)];
      Combine(actual, intraDay, dayAhead, satellite, logs).Ok? <==>
        (forall k :: 0 <= k < 5 ==> rows[k] <= DayRows) && DayRows in rows
  {
    var a, i, d, s, l :=
      NamedSeries(actual, "Actual"), NamedSeries(intraDay, "IntraDay"), NamedSeries(dayAhead, "Day Ahead Ensemble"),
      NamedSeries(satellite, "Satellite"), LogTable(logs);
    var rows := [RowsOf(actual), RowsOf(intraDay), RowsOf(dayAhead), RowsOf(satellite), RowsOf(logs)];
    assert a.value.rows == rows[0] && i.value.rows == rows[1] && d.value.rows == rows[2];
    assert s.value.rows == rows[3] && l.value.rows == rows[4];
    var t := OuterJoin(OuterJoin(OuterJoin(OuterJoin(i.value, d.value), s.value), l.value), a.value);
    assert forall k :: 0 <= k < 5 ==> rows[k] <= t.rows;
    assert t.rows in rows;
  }

  /** With every file missing, the merge is five all-missing columns over the full day. */
  lemma CombineAllMissing()
    ensures var e: Result<Frame> := Err(FileNotFoundError);
      Combine(e, e, e, e, e) == Ok(Merged(["IntraDay", "Day Ahead Ensemble", "Satellite", "Logs", "Actual"], TimeAxis()))
  {
    var e: Result<Frame> := Err(FileNotFoundError);
    CombineShape(e, e, e, e, e);
    CombineOutcome(e, e, e, e, e);
    assert ["IntraDay", "Day Ahead Ensemble", "Satellite"] + ["Logs"] + ["Actual"]
        == ["IntraDay", "Day Ahead Ensemble", "Satellite", "Logs", "Actual"];
  }

  /** Present site columns have at most 95 rows, so with all four CSV files found
      the merge succeeds exactly when the log sheet has 96 rows, or when its file
      is missing and the 96-row placeholder fills the day. */
  lemma CombineNeedsFullDay(actual: Result<Frame>, intraDay: Result<Frame>, dayAhead: Result<Frame>,
                            satellite: Result<Frame>, logs: Result<Frame>)
    requires actual.Ok? && intraDay.Ok? && dayAhead.Ok? && satellite.Ok?
    requires actual.value.rows <= SliceRows && intraDay.value.rows <= SliceRows
    requires dayAhead.value.rows <= SliceRows && satellite.value.rows <= SliceRows
    ensures logs.Ok? ==> (Combine(actual, intraDay, dayAhead, satellite, logs).Ok? <==> logs.value.rows == DayRows)
    ensures logs == Err(FileNotFoundError) ==> Combine(actual, intraDay, dayAhead, satellite, logs).Ok?
  {
    CombineOutcome(actual, intraDay, dayAhead, satellite, logs);
  }

  /** A site column is cut to 95 rows, so with every CSV file present the merge
      succeeds exactly when the log sheet has 96 rows, or its file is missing and
      the 96-row placeholder fills the day. */
  lemma MergeAllNeedsFullDay(src: Sources, date: string, site: string)
    requires ReadCsvData(src.actual, date, Some(site)).Ok? && ReadCsvData(src.intraDay, date, Some(site)).Ok?
    requires ReadCsvData(src.dayAheadEnsemble, date, Some(site)).Ok? && ReadCsvData(src.satellite, date, Some(site)).Ok?
    ensures ReadExcelSheets(src.logs, date, site).Ok? ==>
      (MergeAll(src, date, site).Ok? <==> ReadExcelSheets(src.logs, date, site).value.rows == DayRows)
    ensures ReadExcelSheets(src.logs, date, site) == Err(FileNotFoundError) ==> MergeAll(src, date, site).Ok?
  {
    var a := ReadCsvData(src.actual, date, Some(site));
    var i := ReadCsvData(src.intraDay, date, Some(site));
    var d := ReadCsvData(src.dayAheadEnsemble, date, Some(site));
    var s := ReadCsvData(src.satellite, date, Some(site));
    var l := ReadExcelSheets(src.logs, date, site);
    assert MergeAll(src, date, site) == Combine(a, i, d, s, l);
    CombineNeedsFullDay(a, i, d, s, l);
  }

  /** Whatever the sources hold, a merged day has the four forecast and actual columns. */
  lemma MergeAllColumns(src: Sources, date: string, site: string)
    requires MergeAll(src, date, site).Ok?
    ensures var cols := MergeAll(src, date, site).value.columns;
      "IntraDay" in cols && "Day Ahead Ensemble" in cols && "Satellite" in cols && "Actual" in cols
  {
    var a := ReadCsvData(src.actual, date, Some(site));
    var i := ReadCsvData(src.intraDay, date, Some(site));
    var d := ReadCsvData(src.dayAheadEnsemble, date, Some(site));
    var s := ReadCsvData(src.satellite, date, Some(site));
    var l := ReadExcelSheets(src.logs, date, site);
    assert MergeAll(src, date, site) == Combine(a, i, d, s, l);
    CombineShape(a, i, d, s, l);
    var cols := MergeAll(src, date, site).value.columns;
    assert cols[0] == "IntraDay" && cols[1] == "Day Ahead Ensemble" && cols[2] == "Satellite";
    assert cols[|cols| - 1] == "Actual";
  }

  /** `read_all_data_for_date_site`: five reads each falling back to an
      all-missing series on FileNotFoundError, the series named, four outer
      joins, and the time axis installed as the index. */
  method ReadAllDataForDateSite(src: Sources, date: string, site: string) returns (r: Result<Merged>)
    ensures r == MergeAll(src, date, site)
  {
    var timeAxis := TimeAxis();

    var actual: Frame;
    var readActual := ReadCsvData(src.actual, date, Some(site));
    if readActual.Ok? { actual := readActual.value; }
    else if readActual.error == FileNotFoundError { actual := Frame([], DayRows); }
    else { return Err(readActual.error); }

    var intraDay: Frame;
    var readIntraDay := ReadCsvData(src.intraDay, date, Some(site));
    if readIntraDay.Ok? { intraDay := readIntraDay.value; }
    else if readIntraDay.error == FileNotFoundError { intraDay := Frame([], DayRows); }
    else { return Err(readIntraDay.error); }

    var dayAhead: Frame;
    var readDayAhead := ReadCsvData(src.dayAheadEnsemble, date, Some(site));
    if readDayAhead.Ok? { dayAhead := readDayAhead.value; }
    else if readDayAhead.error == FileNotFoundError { dayAhead := Frame([], DayRows); }
    else { return Err(readDayAhead.error); }

    var satellite: Frame;
    var readSatellite := ReadCsvData(src.satellite, date, Some(site));
    if readSatellite.Ok? { satellite := readSatellite.value; }
    else if readSatellite.error == FileNotFoundError { satellite := Frame([], DayRows); }
    else { return Err(readSatellite.error); }

    var logData: Frame;
    var logIsSeries: bool;
    var readLogs := ReadExcelSheets(src.logs, date, site);
    if readLogs.Ok? { logData, logIsSeries := readLogs.value, false; }
    else if readLogs.error == FileNotFoundError { logData, logIsSeries := Frame([], DayRows), true; }
    else { return Err(readLogs.error); }

    // `.name = ...` names a series; on the log sheet's table it renames nothing.
    intraDay := intraDay.(columns := ["IntraDay"]);
    actual := actual.(columns := ["Actual"]);
    dayAhead := dayAhead.(columns := ["Day Ahead Ensemble"]);
    satellite := satellite.(columns := ["Satellite"]);
    if logIsSeries { logData := logData.(columns := ["Logs"]); }

    var merged := OuterJoin(intraDay, dayAhead);
    merged := OuterJoin(merged, satellite);
    merged := OuterJoin(merged, logData);
    merged := OuterJoin(merged, actual);

    if merged.rows != |timeAxis| {
      return Err(ValueError);
    }
    r := Ok(Merged(merged.columns, timeAxis));
  }
}

=== FILE: outcomes.dfy ===
/** Optional values, the exceptions the dashboard code can raise, and results
    that carry either a value or one of those exceptions. */
module Outcomes {

  datatype Option<T> = None | Some(value: T)

  /** The Python exceptions that the modelled code raises or lets through. */
  datatype Error =
    | FileNotFoundError   // no unique file in a folder matches a date
    | KeyError            // a column (or sheet entry) that is not there
    | IndexError          // indexing past the end of a list
    | ValueError          // strptime failure, min() of an empty list, bad configuration, index length mismatch
    | AttributeError      // `.iloc` on the None returned for a missing sheet
    | ReadFailure         // the reader library cannot read the entry (a directory, a workbook read as CSV, ...)

  datatype Result<T> = Ok(value: T) | Err(error: Error)
}

=== FILE: seqs.dfy ===
/** Helpers over lists of strings for Python list comprehensions and list methods. */
module Seqs {

  /** `[x for x in s if p(x)]`. */
  function Filter(s: seq<string>, p: string -> bool): (r: seq<string>)
    ensures |r| <= |s|
    ensures forall x :: x in r <==> x in s && p(x)
    ensures multiset(r) <= multiset(s)
  {
    if s == [] then []
    else
      assert s == [s[0]] + s[1..];
      if p(s[0]) then [s[0]] + Filter(s[1..], p) else Filter(s[1..], p)
  }

  /** Filtering a concatenation filters each part: the order of the input is kept. */
  lemma {:induction false} FilterAppend(a: seq<string>, b: seq<string>, p: string -> bool)
    ensures Filter(a + b, p) == Filter(a, p) + Filter(b, p)
  {
    if a == [] {
      assert a + b == b;
    } else {
      assert (a + b)[1..] == a[1..] + b;
      FilterAppend(a[1..], b, p);
    }
  }

  /** `[item for sublist in xss for item in sublist]`. */
  function Flatten(xss: seq<seq<string>>): seq<string>
  {
    if xss == [] then [] else xss[0] + Flatten(xss[1..])
  }

  /** An item is in the flattened list exactly when it is in one of the sublists. */
  lemma {:induction false} FlattenMembers(xss: seq<seq<string>>)
    ensures forall x :: x in Flatten(xss) <==> exists i :: 0 <= i < |xss| && x in xss[i]
  {
    if xss != [] {
      FlattenMembers(xss[1..]);
      assert forall i :: 1 <= i < |xss| ==> xss[i] == xss[1..][i - 1];
      assert forall i :: 0 <= i < |xss[1..]| ==> xss[1..][i] == xss[i + 1];
    }
  }

  /** Position of the first occurrence of `x` in `s`. */
  function IndexOf(s: seq<string>, x: string): (i: nat)
    requires x in s
    ensures i < |s| && s[i] == x && x !in s[..i]
  {
    if s[0] == x then 0
    else
      var j := IndexOf(s[1..], x);
      assert s[..j + 1] == [s[0]] + s[1..][..j];
      j + 1
  }

  /** Python's `list.remove(x)`: drops the first occurrence of `x`; the caller
      checks that `x` is present (the source does, with `'Logs' in outputs`). */
  function RemoveFirst(s: seq<string>, x: string): (r: seq<string>)
    requires x in s
    ensures |r| == |s| - 1
    ensures multiset(r) == multiset(s) - multiset{x}
    ensures r == s[..IndexOf(s, x)] + s[IndexOf(s, x) + 1..]
  {
    var i := IndexOf(s, x);
    assert s == s[..i] + [s[i]] + s[i + 1..];
    s[..i] + s[i + 1..]
  }

  /** The first occurrence in `a + b` of an element of `a` lies in `a`. */
  lemma {:induction false} IndexOfAppend(a: seq<string>, b: seq<string>, x: string)
    requires x in a
    ensures IndexOf(a + b, x) == IndexOf(a, x)
  {
    if a[0] != x {
      assert (a + b)[1..] == a[1..] + b;
      IndexOfAppend(a[1..], b, x);
    }
  }

  /** Removing an element present in `a` from `a + b` leaves `b` untouched. */
  lemma RemoveFirstAppend(a: seq<string>, b: seq<string>, x: string)
    requires x in a
    ensures RemoveFirst(a + b, x) == RemoveFirst(a, x) + b
  {
    var i := IndexOf(a, x);
    IndexOfAppend(a, b, x);
    assert (a + b)[..i] == a[..i];
    assert (a + b)[i + 1..] == a[i + 1..] + b;
  }

  /** With no element satisfying `p`, the comprehension is empty. */
  lemma {:induction false} FilterNone(s: seq<string>, p: string -> bool)
    requires forall i :: 0 <= i < |s| ==> !p(s[i])
    ensures Filter(s, p) == []
  {
    if s != [] {
      assert !p(s[0]);
      FilterNone(s[1..], p);
    }
  }

  /** With exactly one position satisfying `p`, the comprehension holds that element alone. */
  lemma {:induction false} FilterSingle(s: seq<string>, p: string -> bool, i: int)
    requires 0 <= i < |s| && p(s[i])
    requires forall j :: 0 <= j < |s| && p(s[j]) ==> j == i
    ensures Filter(s, p) == [s[i]]
  {
    assert s == s[..i] + [s[i]] + s[i + 1..];
    FilterAppend(s[..i] + [s[i]], s[i + 1..], p);
    FilterAppend(s[..i], [s[i]], p);
    FilterNone(s[..i], p);
    FilterNone(s[i + 1..], p);
    assert [s[i]][1..] == [];
  }

  /** Two positions satisfying `p` give the comprehension at least two elements. */
  lemma {:induction false} FilterTwo(s: seq<string>, p: string -> bool, i: int, j: int)
    requires 0 <= i < j < |s| && p(s[i]) && p(s[j])
    ensures |Filter(s, p)| >= 2
  {
    assert s == s[..j] + s[j..];
    FilterAppend(s[..j], s[j..], p);
    assert s[..j][i] == s[i] && s[j..][0] == s[j];
    assert s[i] in Filter(s[..j], p) && s[j] in Filter(s[j..], p);
  }
}

=== FILE: text.dfy ===
/** String operations the dashboard code relies on: Python's substring test,
    `split(...)[0]`, negative slicing, zero-padded decimal fields and the
    code-point order that `sorted` uses on strings. */
module Text {

  predicate IsDigit(c: char) { '0' <= c <= '9' }

  predicate AllDigits(s: string) { forall i :: 0 <= i < |s| ==> IsDigit(s[i]) }

  function DigitChar(n: nat): (c: char)
    requires n < 10
    ensures IsDigit(c) && c as int == '0' as int + n
  {
    ('0' as int + n) as char
  }

  function DigitValue(c: char): (n: nat)
    requires IsDigit(c)
    ensures n < 10 && DigitChar(n) == c
  {
    c as int - '0' as int
  }

  /** The number a string of decimal digits denotes (leading zeros allowed). */
  function DigitsValue(s: string): nat
    requires AllDigits(s)
  {
    if s == [] then 0 else DigitsValue(s[..|s| - 1]) * 10 + DigitValue(s[|s| - 1])
  }

  function Pow10(n: nat): (p: nat)
    ensures p >= 1
  {
    if n == 0 then 1 else 10 * Pow10(n - 1)
  }

  /** A string of `k` digits denotes a number below 10 to the power `k`. */
  lemma {:induction false} DigitsValueBound(s: string)
    requires AllDigits(s)
    ensures DigitsValue(s) < Pow10(|s|)
  {
    if s != [] {
      DigitsValueBound(s[..|s| - 1]);
    }
  }

  /** `%02d`, the two-digit field of strftime's `%d`, `%m`, `%H` and `%M`. */
  function Pad2(n: nat): (r: string)
    requires n < 100
    ensures |r| == 2 && AllDigits(r) && DigitsValue(r) == n
  {
    var r := [DigitChar(n / 10), DigitChar(n % 10)];
    assert r[..1] == [r[0]] && r[..1][..0] == [];
    assert DigitValue(r[0]) == n / 10 && DigitValue(r[1]) == n % 10;
    assert DigitsValue(r[..1]) == n / 10;
    r
  }

  /** `%04d`, the four-digit year field. */
  function Pad4(n: nat): (r: string)
    requires n < 10000
    ensures |r| == 4 && AllDigits(r) && DigitsValue(r) == n
  {
    var r := Pad2(n / 100) + Pad2(n % 100);
    assert r[..3] == Pad2(n / 100) + [r[2]] && r[..3][..2] == Pad2(n / 100);
    r
  }

  /** Two digits are the zero-padded form of the number they denote. */
  lemma Pad2OfDigits(t: string)
    requires |t| == 2 && AllDigits(t)
    ensures DigitsValue(t) < 100 && Pad2(DigitsValue(t)) == t
  {
    assert t[..1] == [t[0]] && t[..1][..0] == [];
    var n := DigitsValue(t);
    assert DigitsValue(t[..1]) == DigitValue(t[0]);
    assert n == DigitValue(t[0]) * 10 + DigitValue(t[1]);
    assert n / 10 == DigitValue(t[0]) && n % 10 == DigitValue(t[1]);
  }

  /** Four digits are the zero-padded form of the number they denote. */
  lemma Pad4OfDigits(t: string)
    requires |t| == 4 && AllDigits(t)
    ensures DigitsValue(t) < 10000 && Pad4(DigitsValue(t)) == t
  {
    var hi, lo := t[..2], t[2..];
    Pad2OfDigits(hi);
    Pad2OfDigits(lo);
    var d0, d1, d2, d3 := DigitValue(t[0]), DigitValue(t[1]), DigitValue(t[2]), DigitValue(t[3]);
    assert t[..3][..2] == hi && t[..2][..1] == [t[0]] && [t[0]][..0] == [];
    assert DigitsValue(hi) == d0 * 10 + d1;
    assert lo[..1] == [t[2]] && [t[2]][..0] == [] && lo[1] == t[3];
    assert DigitsValue(lo) == d2 * 10 + d3;
    assert DigitsValue(t[..3]) == (d0 * 10 + d1) * 10 + d2;
    var n := DigitsValue(t);
    assert n == DigitsValue(hi) * 100 + DigitsValue(lo);
    assert n / 100 == DigitsValue(hi) && n % 100 == DigitsValue(lo);
    assert t == hi + lo;
  }

  /** `sub` occurs in `s` starting at position `i`. */
  ghost predicate OccursAt(s: string, sub: string, i: int)
  {
    0 <= i && i + |sub| <= |s| && s[i..i + |sub|] == sub
  }

  /** Python's `sub in s` on strings. */
  predicate Contains(s: string, sub: string)
    decreases |s|
  {
    (|sub| <= |s| && s[..|sub|] == sub) || (s != [] && Contains(s[1..], sub))
  }

  /** The substring test holds exactly when there is a position where `sub` occurs. */
  lemma {:induction false} ContainsIffOccurs(s: string, sub: string)
    ensures Contains(s, sub) <==> exists i :: OccursAt(s, sub, i)
    decreases |s|
  {
    if |sub| <= |s| && s[..|sub|] == sub {
      assert OccursAt(s, sub, 0);
    } else if s != [] {
      ContainsIffOccurs(s[1..], sub);
      if exists i :: OccursAt(s[1..], sub, i) {
        var i :| OccursAt(s[1..], sub, i);
        assert s[i + 1..i + 1 + |sub|] == s[1..][i..i + |sub|];
        assert OccursAt(s, sub, i + 1);
      }
      if exists i :: OccursAt(s, sub, i) {
        var i :| OccursAt(s, sub, i);
        assert 1 <= i && i + |sub| <= |s|;
        assert s[1..][i - 1..i - 1 + |sub|] == s[i..i + |sub|];
        assert OccursAt(s[1..], sub, i - 1);
      }
    }
  }

  /** A string without `c` does not contain the one-character string `[c]`. */
  lemma {:induction false} NotContainsChar(s: string, c: char)
    requires c !in s
    ensures !Contains(s, [c])
    decreases |s|
  {
    if s != [] {
      assert s[0] in s;
      assert forall k :: 0 <= k < |s[1..]| ==> s[1..][k] in s;
      NotContainsChar(s[1..], c);
    }
  }

  /** A string without the first character of `sub` does not contain `sub`. */
  lemma {:induction false} NotContainsFirst(s: string, sub: string)
    requires sub != [] && sub[0] !in s
    ensures !Contains(s, sub)
    decreases |s|
  {
    if s != [] {
      assert s[0] in s;
      assert forall k :: 0 <= k < |s[1..]| ==> s[1..][k] in s;
      NotContainsFirst(s[1..], sub);
    }
  }

  /** An occurrence at a given position is enough for the substring test. */
  lemma OccursExample(s: string, sub: string, i: nat)
    requires i + |sub| <= |s| && s[i..i + |sub|] == sub
    ensures Contains(s, sub)
  {
    assert OccursAt(s, sub, i);
    ContainsIffOccurs(s, sub);
  }

  /** A string holding `c` contains the one-character string `[c]`. */
  lemma ContainsChar(s: string, c: char)
    requires c in s
    ensures Contains(s, [c])
  {
    var i :| 0 <= i < |s| && s[i] == c;
    assert s[i..i + 1] == [c];
    assert OccursAt(s, [c], i);
    ContainsIffOccurs(s, [c]);
  }

  /** `s.split(c)[0]`: the part of `s` before the first `c` (all of `s` when there is none). */
  function Before(s: string, c: char): (r: string)
    ensures |r| <= |s| && r == s[..|r|]
    ensures c !in r
    ensures |r| == |s| || s[|r|] == c
  {
    if s == [] || s[0] == c then []
    else [s[0]] + Before(s[1..], c)
  }

  /** Cutting at the first `c` recovers the part written before it. */
  lemma {:induction false} BeforeConcat(a: string, c: char, b: string)
    requires c !in a
    ensures Before(a + [c] + b, c) == a
  {
    if a != [] {
      assert a[0] in a;
      assert forall k :: 0 <= k < |a[1..]| ==> a[1..][k] in a;
      assert (a + [c] + b)[1..] == a[1..] + [c] + b;
      BeforeConcat(a[1..], c, b);
    }
  }

  /** A file name without its extension: `name.split('.')[0]`. */
  function Stem(name: string): (r: string)
    ensures |r| <= |name| && r == name[..|r|] && '.' !in r
    ensures |r| == |name| || name[|r|] == '.'
  {
    Before(name, '.')
  }

  /** Python's `s[-n:]`: the last `n` characters, or all of `s` when it is shorter. */
  function Suffix(s: string, n: nat): (r: string)
    ensures |r| == if |s| < n then |s| else n
    ensures r == s[|s| - |r|..]
  {
    if |s| <= n then s else s[|s| - n..]
  }

  // ---------------------------------------------------------------------------
  // The order Python uses on strings: lexicographic on code points.

  predicate StrLe(a: string, b: string)
    decreases |a|
  {
    a == [] || (b != [] && (a[0] < b[0] || (a[0] == b[0] && StrLe(a[1..], b[1..]))))
  }

  predicate StrLt(a: string, b: string) { StrLe(a, b) && a != b }

  lemma {:induction false} StrLeTotal(a: string, b: string)
    ensures StrLe(a, b) || StrLe(b, a)
    decreases |a|
  {
    if a != [] && b != [] && a[0] == b[0] {
      StrLeTotal(a[1..], b[1..]);
    }
  }

  lemma {:induction false} StrLeTrans(a: string, b: string, c: string)
    requires StrLe(a, b) && StrLe(b, c)
    ensures StrLe(a, c)
    decreases |a|
  {
    if a != [] && a[0] == b[0] && b[0] == c[0] {
      StrLeTrans(a[1..], b[1..], c[1..]);
    }
  }

  /** Two-digit fields compare as their numbers do, whatever follows them. */
  lemma Pad2Order(a: nat, b: nat, x: string, y: string)
    requires a < b < 100
    ensures StrLt(Pad2(a) + x, Pad2(b) + y)
  {
    var s, t := Pad2(a) + x, Pad2(b) + y;
    assert s[0] == DigitChar(a / 10) && t[0] == DigitChar(b / 10);
    if a / 10 == b / 10 {
      assert s[1] == DigitChar(a % 10) && t[1] == DigitChar(b % 10);
      assert s[1..][0] == s[1] && t[1..][0] == t[1];
      assert StrLe(s[1..], t[1..]);
    }
  }

  /** A common prefix does not change how two strings compare. */
  lemma {:induction false} PrefixOrder(p: string, x: string, y: string)
    requires StrLt(x, y)
    ensures StrLt(p + x, p + y)
  {
    if p != [] {
      assert (p + x)[1..] == p[1..] + x && (p + y)[1..] == p[1..] + y;
      PrefixOrder(p[1..], x, y);
    } else {
      assert p + x == x && p + y == y;
    }
  }

  predicate Sorted(s: seq<string>)
  {
    forall i, j :: 0 <= i < j < |s| ==> StrLe(s[i], s[j])
  }

  /** `h` is no greater than any element of `s`. */
  predicate Below(h: string, s: seq<string>)
  {
    forall j :: 0 <= j < |s| ==> StrLe(h, s[j])
  }

  lemma ConsSorted(h: string, t: seq<string>)
    requires Sorted(t) && Below(h, t)
    ensures Sorted([h] + t)
  {
    var s := [h] + t;
    forall i, j | 0 <= i < j < |s| ensures StrLe(s[i], s[j]) {
      assert s[j] == t[j - 1];
      if i > 0 { assert s[i] == t[i - 1]; }
    }
  }

  /** Places `x` in a list before the first element it does not exceed. */
  function Insert(x: string, s: seq<string>): (r: seq<string>)
    ensures multiset(r) == multiset(s) + multiset{x}
  {
    if s == [] then [x]
    else if StrLe(x, s[0]) then [x] + s
    else
      assert s == [s[0]] + s[1..];
      [s[0]] + Insert(x, s[1..])
  }

  /** A lower bound of the list and of `x` bounds the list with `x` inserted. */
  lemma {:induction false} InsertBelow(h: string, x: string, s: seq<string>)
    requires Below(h, s) && StrLe(h, x)
    ensures Below(h, Insert(x, s))
  {
    if s != [] && !StrLe(x, s[0]) {
      var rest := s[1..];
      forall j | 0 <= j < |rest| ensures StrLe(h, rest[j]) {
        assert rest[j] == s[j + 1];
      }
      InsertBelow(h, x, rest);
      var t := Insert(x, rest);
      assert Insert(x, s) == [s[0]] + t;
      assert StrLe(h, s[0]);
      forall j | 0 <= j < |t| + 1 ensures StrLe(h, ([s[0]] + t)[j]) {
        if j > 0 { assert ([s[0]] + t)[j] == t[j - 1]; }
      }
    }
  }

  /** Insertion keeps a sorted list sorted. */
  lemma {:induction false} InsertSorted(x: string, s: seq<string>)
    requires Sorted(s)
    ensures Sorted(Insert(x, s))
  {
    if s == [] {
    } else if StrLe(x, s[0]) {
      forall j | 0 <= j < |s| ensures StrLe(x, s[j]) {
        if j > 0 { StrLeTrans(x, s[0], s[j]); }
      }
      ConsSorted(x, s);
    } else {
      StrLeTotal(x, s[0]);
      var rest := s[1..];
      assert forall i, j :: 0 <= i < j < |rest| ==> rest[i] == s[i + 1] && rest[j] == s[j + 1];
      assert Sorted(rest);
      assert forall j :: 0 <= j < |rest| ==> rest[j] == s[j + 1];
      InsertSorted(x, rest);
      InsertBelow(s[0], x, rest);
      ConsSorted(s[0], Insert(x, rest));
    }
  }

  /** Python's `sorted(...)` on a list of strings. */
  function Sort(s: seq<string>): (r: seq<string>)
    ensures Sorted(r)
    ensures multiset(r) == multiset(s)
  {
    if s == [] then []
    else
      assert s == [s[0]] + s[1..];
      var t := Sort(s[1..]);
      InsertSorted(s[0], t);
      Insert(s[0], t)
  }
}
